=== FILE: README.md ===
# rlmdb core in Dafny

rlmdb turns an embedded LMDB store into a replicated one. The leader writes operations into BookKeeper ledgers. A committed ledger's id is appended to every member's log list in ZooKeeper, and members are meant to replay the listed ledgers in list order; the replay loop in the code is never called. This project models the sequential, byte-exact logic under that glue and proves properties of it. The external services become abstract state, and each of their answers that can go either way becomes a parameter.

- **Fixed-width codec** (`LongCodec`, over `Bytes`). A Java `long` is written as 8 big-endian bytes. These are the log-list entries and the cursors.
- **Operation records** (`OpRecord`). A keyspace writes each ledger entry as `id(4) ++ opcode(1) ++ keyLength(1) ++ key ++ value`. `Decode` is an independent reader that the encoder is proved against.
- **Keyspace markers** (`Base16`, `Env.MarkerPath`). Each keyspace has a marker node named by the upper-case hex (section 8 of RFC 4648) of its 4-byte fingerprint. The fingerprint is CRC-32C, as named in section 12.1 of RFC 3720.
- **Ledger lifecycle** (`Env`, over `LedgerService`, `Coordination` and `LogList`). This covers:
  - the leader guard;
  - the quorum choice;
  - the ensemble-degrading retry of `createLedger`, taken one service reply at a time;
  - `commitLedger`, which closes the ledger and then appends to each member's list with a version-conditioned write, with no rollback;
  - `abortLedger`, which closes and deletes the ledger and swallows both failures.
- **Write transactions** (`WriteTransactions`). The model covers construction, `add`, `commit`, `abort` and `close`. `close` is exactly `abort`. `WriteTx.IsReadOnly` is constantly false.
- **Keyspaces** (`Keyspaces`). The model covers `openDatabase`/`drop` on the marker, `put`/`delete` on a transaction, and the single-call `put`/`delete`. `Database.GetId` returns the fingerprint.
- **Replay arithmetic** (`Replay`). These are the pure index computations of the dormant replay loop:
  - the first occurrence of the cursor plus 8;
  - steps of 8 from there;
  - the minimum over the members' cursors.

The environment `Env.Env` is an immutable record with five parts:
- the leader flag, an input;
- the configured members, distinct and in loop order;
- the ledger map;
- each member's log-list node, holding data and a version;
- the other coordination paths.

Each operation returns the next environment together with a `Result`.

Where the code and its evident intent disagree, the model follows the code:
- Keys over 255 bytes should be refused. The code has no check.
- The single-call put and delete should commit. The code only closes, which aborts.
- `close()` should abort only a transaction that was not committed. The code always aborts.
- Opening a keyspace that already exists should succeed. The code's marker reset demands version 0 of a node it has already moved to version 1, so a second open fails.
- Start-up should create the keyspace map node `/rlmdb/dbmap` under which every marker lives. The code never creates it, so no marker can be created.

Each of these is logged under "## Findings" with a corrected counterpart.

## Model

| member | source | states |
|---|---|---|
| `Bytes.BeDecode` | src/main/java/rlmdb/Env.java:165-174 | the big-endian value of k bytes is below 256^k |
| `Bytes.BeEncode` | src/main/java/rlmdb/Env.java:176-187 | a value below 256^w becomes exactly w bytes whose big-endian value is that value |
| `Bytes.EncodeOfDecode` | src/main/java/rlmdb/Env.java:165-187 | every byte string is the encoding of its own value, so no bytes are lost between the two directions |
| `LongCodec.ToUnsigned` | src/main/java/rlmdb/Env.java:176-187 | the 64-bit pattern of a long is below 2^64 and congruent to it modulo 2^64 |
| `LongCodec.ToSigned` | src/main/java/rlmdb/Env.java:165-174 | reading a 64-bit pattern as a long gives the long whose pattern it is |
| `LongCodec.LongToByteArray` | src/main/java/rlmdb/Env.java:176-187 | always exactly 8 bytes; with the lemmas below, the two's-complement pattern of the long, most significant byte first |
| `LongCodec.ByteArrayToLong` | src/main/java/rlmdb/Env.java:165-174 | needs `off + 8 <= |a|`; the result is the one long whose encoding is exactly `a[off..off+8]` |
| `LongCodec.LongRoundTrip` | src/main/java/rlmdb/Env.java:165-191 | `byteArrayToLong(longToByteArray(l)) == l` for every 64-bit l |
| `LongCodec.BytesRoundTrip` | src/main/java/rlmdb/Env.java:165-191 | `longToByteArray(byteArrayToLong(b)) == b` for every 8-byte b |
| `LongCodec.LongToByteArrayInjective` | src/main/java/rlmdb/Env.java:176-187 | distinct longs have distinct 8-byte encodings |
| `LongCodec.ByteArrayToLongWindow` | src/main/java/rlmdb/Env.java:165-174 | two reads agree exactly when their 8-byte windows agree: nothing outside `a[off..off+8)` is read |
| `LongCodec.LongToByteArrayShifts` | src/main/java/rlmdb/Env.java:176-187 | byte i equals `(l >> (56 - 8i)) & 0xff` computed on the signed long, for negative l too |
| `LongCodec.ByteArrayToLongShifts` | src/main/java/rlmdb/Env.java:165-174 | the unsigned pattern of the result is the sum of `a[off+i] << (56 - 8i)` over the eight bytes |
| `LongCodec.MostSignificantFirst` | src/main/java/rlmdb/Env.java:178-185 | byte 0 holds bits 63..56 and byte 7 holds bits 7..0 (big-endian) |
| `Base16.Encode` | src/main/java/rlmdb/Env.java:149 | two characters per byte |
| `Base16.Decode` | src/main/java/rlmdb/Env.java:149 | the reference reader of upper-case hex: a successful read has half as many bytes as characters |
| `Base16.EncodeAt` | src/main/java/rlmdb/Env.java:149 | characters 2i and 2i+1 of the encoding are the high and low nibble digits of byte i |
| `Base16.DecodeEncode` | src/main/java/rlmdb/Env.java:149 | the upper-case hex of the fingerprint decodes back to the fingerprint |
| `Base16.EncodeInjective` | src/main/java/rlmdb/Env.java:149 | hex encodings are equal exactly when the byte strings are |
| `Env.MarkerPath` | src/main/java/rlmdb/Env.java:149 | the marker lies directly under `/rlmdb/dbmap/` and is 8 hex characters long |
| `Env.MarkerPathInjective` | src/main/java/rlmdb/Env.java:236-242 | distinct fingerprints name distinct marker nodes, both ways |
| `OpRecord.PutPrefix` | src/main/java/rlmdb/Database.java:23 | the put prefix is the 4-byte id followed by opcode 0x01 |
| `OpRecord.DeletePrefix` | src/main/java/rlmdb/Database.java:24 | the delete prefix is the 4-byte id followed by opcode 0x00 |
| `OpRecord.LengthByte` | src/main/java/rlmdb/Database.java:36 | `(byte)key.length` equals the length when at most 255 and agrees with it modulo 256 otherwise |
| `OpRecord.PutRecord` | src/main/java/rlmdb/Database.java:35-37 | layout `id ++ [1] ++ [len] ++ key ++ value`, length `6 + |key| + |value|` |
| `OpRecord.DeleteRecord` | src/main/java/rlmdb/Database.java:45-47 | layout `id ++ [0] ++ [len] ++ key`, length `6 + |key|`, no value bytes |
| `OpRecord.Decode` | src/main/java/rlmdb/Database.java:36 | a decoded record's first 4 bytes are its keyspace and byte 5 is its key length |
| `OpRecord.DecodeEncode` | src/main/java/rlmdb/Database.java:35-47 | for keys of at most 255 bytes, keyspace, opcode, key and value are recovered exactly |
| `OpRecord.EncodeDecode` | src/main/java/rlmdb/Database.java:35-47 | every record that decodes re-encodes to the same bytes |
| `OpRecord.EncodeInjective` | src/main/java/rlmdb/Database.java:35-47 | for keys of at most 255 bytes, equal records mean equal operations, and conversely |
| `OpRecord.PutDeleteDisjoint` | src/main/java/rlmdb/Database.java:23-24 | no put record equals a delete record (byte 4 differs) |
| `OpRecord.LongKeyCollision` | src/main/java/rlmdb/Database.java:36 | a 256-byte key with an empty value and an empty key with that value give the same record |
| `OpRecord.CheckedEncode` | src/main/java/rlmdb/Database.java:36 | corrected encoder: succeeds exactly for keys of at most 255 bytes, and then decodes back to the operation |
| `OpRecord.CheckedEncodeInjective` | src/main/java/rlmdb/Database.java:36 | the corrected encoder never maps two operations to one record |
| `LedgerService.NewLedger` | src/main/java/rlmdb/Env.java:200 | a created ledger is open and empty, with ensemble n and write quorum = ack quorum = m |
| `LedgerService.AddEntry` | src/main/java/rlmdb/WriteTransaction.java:16 | succeeds exactly on an existing open ledger with `ok`; appends exactly `data`, keeping the ledger open with its ensemble and quorums; other ledgers are unchanged |
| `LedgerService.Close` | src/main/java/rlmdb/Env.java:217 | seals the ledger and keeps its entries, ensemble and quorums; other ledgers are unchanged |
| `LedgerService.Delete` | src/main/java/rlmdb/Env.java:225 | removes exactly that ledger |
| `LedgerService.CloseQuietly` | src/main/java/rlmdb/Env.java:232 | closes when possible, otherwise leaves the ledger as it was; the ledger is closed exactly when the close succeeded or it was closed already, and no other field changes; never fails |
| `LedgerService.DeleteQuietly` | src/main/java/rlmdb/Env.java:233 | removes the ledger when `ok`, otherwise changes nothing; never fails |
| `Coordination.Cas` | src/main/java/rlmdb/Env.java:222 | the versioned write succeeds exactly when the node still has the expected version; it then bumps the version; other nodes are untouched |
| `Coordination.AppendWithVersion` | src/main/java/rlmdb/Env.java:220-222 | the call reports success exactly when no one else wrote between read and write and the connection held; the node then holds `old ++ suffix`; after a race the node holds the other client's data one version on and the call fails; when the connection drops after the write reached the server, the node holds `old ++ suffix` although the call fails; a failed call otherwise leaves the node as it was unless another client raced |
| `LogList.EntryBytes` | src/main/java/rlmdb/Env.java:222 | 16 bytes; reading a long at offset 0 gives the ledger id and at offset 8 the timestamp |
| `LogList.Entries` | src/main/java/rlmdb/Env.java:222 | a list of L bytes holds `L / 16` whole entries; a trailing partial entry is ignored |
| `LogList.EntriesAppend` | src/main/java/rlmdb/Env.java:222 | appending one entry's 16 bytes to a whole-entry list appends exactly that entry |
| `Env.Quorum` | src/main/java/rlmdb/Env.java:199 | `m` is n or n-1; for n >= 1, `1 <= m <= n` and m is a strict majority; `m < n` exactly when `n > 2` |
| `Env.CreateLoop` | src/main/java/rlmdb/Env.java:195-211 | first request at size n, each quorum from its size, each retry shrinks by one only above 2, so the requests are exactly the first k of the schedule `Attempts(n, k)`; every non-final reply was NotEnoughBookies; another failure raises; a handle is returned only on a grant, with a fresh open empty ledger |
| `Env.CreateLedger` | src/main/java/rlmdb/Env.java:193-212 | a non-leader gets NotLeader with no request and no change; a leader starts at the cluster size; success adds exactly one open empty ledger |
| `Env.DegradeToFit` | src/main/java/rlmdb/Env.java:196-210 | a service refusing sizes above k >= 2 is asked n, n-1, …, k in order and grants a ledger of ensemble k |
| `Env.CreateLedgerDegrades` | src/main/java/rlmdb/Env.java:196-210 | the same, starting from the cluster size on a leader |
| `Env.NeverBelowTwo` | src/main/java/rlmdb/Env.java:204 | after t refusals the loop is still retrying, and request i asked for `max(2, n - i)` |
| `Env.AppendAll` | src/main/java/rlmdb/Env.java:219-223 | the loop stops exactly at the first member whose read or write call fails; each member before it got exactly its suffix appended, one version later; the member where it stopped holds its suffix when its write landed before the connection dropped, and otherwise is unchanged or, where another client raced on it, holds that client's data one version on; later members and non-members are unchanged |
| `Env.CommitLedger` | src/main/java/rlmdb/Env.java:214-228 | NotLeader with no change when not leader; succeeds exactly when close and every member's read and write succeed; on success the ledger is closed and otherwise unchanged, and each member's list gains its 16 bytes; on failure it raises CommitFailure with the ledger id, and the ledger is deleted exactly when deletion succeeds |
| `Env.CommitFailureLeavesPrefix` | src/main/java/rlmdb/Env.java:219-227 | after a failed commit the updated members form a prefix of the loop order; every other member is unchanged or, where another client raced on it, holds that client's data one version on; there is one member where the loop stopped, with every member before it appended and every member after it unchanged |
| `Env.LostWriteLeavesDanglingEntry` | src/main/java/rlmdb/Env.java:214-228 | when the connection drops after member w's write reached the server, commit raises CommitFailure and the ledger is deleted, yet member w's log list already holds the entry naming that ledger |
| `Env.CommitPublishes` | src/main/java/rlmdb/Env.java:217-222 | after a successful commit each member's list grows by 16 bytes and reads as its old entries plus `(id, time)` |
| `Env.AbortLedger` | src/main/java/rlmdb/Env.java:230-234 | raises only NotLeader, and then changes nothing; otherwise it closes and deletes with failures swallowed, and log lists are untouched; a ledger that survives is closed exactly when the close succeeded or it was closed already, and is otherwise unchanged |
| `Env.CreateMarker` | src/main/java/rlmdb/Env.java:350-355 | adds exactly the marker path; fails when the keyspace-map parent node is missing, and when the marker already exists, because the reset demands version 0 |
| `Env.EnsureMarker` | src/main/java/rlmdb/Env.java:350-355 | corrected creation with an unconditional reset: fails only without the parent node; an existing marker is left as it was |
| `Env.DropDatabase` | src/main/java/rlmdb/Env.java:236-242 | removes exactly the marker path of the id; a missing node or failed call raises |
| `WriteTransactions.NeverReadOnly` | src/main/java/rlmdb/WriteTransaction.java:36-39 | `isReadOnly` is false for every write transaction |
| `WriteTransactions.Begin` | src/main/java/rlmdb/WriteTransaction.java:10-13 | a non-leader raises NotLeader and no ledger is created; a leader either gets CreateFailure with no change, or owns a fresh open empty ledger |
| `WriteTransactions.Add` | src/main/java/rlmdb/WriteTransaction.java:15-17 | appends exactly one entry equal to `data` to the owned ledger, which is otherwise the same record; nothing else changes; a failure changes nothing |
| `WriteTransactions.Commit` | src/main/java/rlmdb/WriteTransaction.java:24-28 | delegates to commitLedger: leader guard, closed ledger, one appended entry per member, CommitFailure carrying the owned id |
| `WriteTransactions.Abort` | src/main/java/rlmdb/WriteTransaction.java:30-34 | leader guard; deletes the owned ledger when deletion succeeds; log lists are untouched |
| `WriteTransactions.Close` | src/main/java/rlmdb/WriteTransaction.java:19-22 | equals Abort: after lost leadership it raises NotLeader and deletes nothing |
| `WriteTransactions.CloseAfterCommitUnpublishes` | src/main/java/rlmdb/WriteTransaction.java:19-34 | after a successful commit, close deletes the ledger while every member's list still names it |
| `WriteTransactions.GuardedCommit` | src/main/java/rlmdb/WriteTransaction.java:24-28 | corrected commit: records Committed exactly on success |
| `WriteTransactions.GuardedClose` | src/main/java/rlmdb/WriteTransaction.java:19-22 | corrected close: a no-op after a commit, otherwise the abort |
| `WriteTransactions.GuardedCloseKeepsPublished` | src/main/java/rlmdb/WriteTransaction.java:19-34 | with the guard, a committed ledger survives close, closed and published |
| `Keyspaces.Open` | src/main/java/rlmdb/Env.java:148-151 | succeeds exactly when the call succeeds, the keyspace map exists and the marker does not; the id is the hash of the name; exactly that marker is added; ledgers, log lists, leadership and members are unchanged |
| `Keyspaces.ReopenFails` | src/main/java/rlmdb/Env.java:354 | after one successful open, opening the same name again always fails |
| `Keyspaces.OpenOrReuse` | src/main/java/rlmdb/Env.java:148-151 | corrected open: succeeds whenever the keyspace map exists, with the same keyspace value and marker as `Open` |
| `Keyspaces.ReopenSucceeds` | src/main/java/rlmdb/Env.java:148-151 | with the corrected creation, a second open returns the same keyspace and leaves the environment unchanged |
| `Keyspaces.Drop` | src/main/java/rlmdb/Database.java:55-58 | removes exactly the marker of the keyspace's id; ledgers, log lists, leadership and members are unchanged |
| `Keyspaces.OpenedId` | src/main/java/rlmdb/Database.java:60-62 | `getId` of an opened keyspace is the fingerprint of its name, and it is the id `drop` hands to `dropDatabase` |
| `Keyspaces.DropUndoesOpen` | src/main/java/rlmdb/Database.java:57 | the marker drop removes is the one openDatabase created: open then drop restores the paths |
| `Keyspaces.SameNameSameId` | src/main/java/rlmdb/Database.java:18-25 | keyspaces opened under one name have the same id and the same put and delete prefixes |
| `Keyspaces.OpenFailsAfterStartup` | src/main/java/rlmdb/Env.java:302-306 | with only the start-up nodes present, opening any keyspace fails |
| `Keyspaces.OpenSucceedsAfterCorrectedStartup` | src/main/java/rlmdb/Env.java:302-306 | once the keyspace map node exists, opening succeeds and creates the marker |
| `Keyspaces.PutTx` | src/main/java/rlmdb/Database.java:35-37 | adds exactly one put record to the transaction's ledger, which is otherwise the same record and decodes back for short keys; leadership, members, log lists, paths and other ledgers are unchanged |
| `Keyspaces.DeleteTx` | src/main/java/rlmdb/Database.java:45-47 | adds exactly one delete record, which is otherwise the same record and decodes back for short keys; leadership, members, log lists, paths and other ledgers are unchanged |
| `Keyspaces.WriteOne` | src/main/java/rlmdb/Database.java:39-43 | open, add, then close (abort): log lists never change; when the node still leads at close and the delete succeeds, the ledgers end as they began; success needs leadership at both ends |
| `Keyspaces.OrphanWhenLeadershipLost` | src/main/java/rlmdb/Database.java:39-43 | when leadership is lost after the ledger is created, close raises NotLeader (or the add's failure surfaces) and the new ledger stays behind, open, holding the record if it was added |
| `Keyspaces.PutSingle` | src/main/java/rlmdb/Database.java:39-43 | the single-call put publishes nothing and, when the node still leads at close and the delete succeeds, leaves the ledgers unchanged |
| `Keyspaces.DeleteSingle` | src/main/java/rlmdb/Database.java:49-53 | the single-call delete publishes nothing and, when the node still leads at close and the delete succeeds, leaves the ledgers unchanged |
| `Keyspaces.CheckedPutTx` | src/main/java/rlmdb/Database.java:35-37 | corrected put: KeyTooLong with no change for keys over 255 bytes, otherwise one record that decodes back |
| `Keyspaces.PublishingPut` | src/main/java/rlmdb/Database.java:39-43 | corrected single-call put: on success a fresh closed ledger holds exactly the record, and every member's list gains its entry |
| `Replay.IndexOf` | src/main/java/rlmdb/Env.java:377 | first byte position where the cursor occurs, 0 for an empty cursor, -1 exactly when none |
| `Replay.ReplayStart` | src/main/java/rlmdb/Env.java:377-378 | 8 past the first occurrence, or 8 when there is none; an empty cursor starts at 8 |
| `Replay.Offsets` | src/main/java/rlmdb/Env.java:381 | the k-th visited offset is `start + 8k`, all below the length, `ceil((len - start) / 8)` of them |
| `Replay.OffsetsComplete` | src/main/java/rlmdb/Env.java:381 | an offset is visited exactly when it is in range and a multiple of 8 past the start |
| `Replay.MinCursor` | src/main/java/rlmdb/Env.java:403-412 | fails exactly when a non-empty cursor is shorter than 8 bytes; otherwise returns the least non-empty cursor value, or `Long.MAX_VALUE` when all are empty |

## Left out

- Start-up, shutdown and wiring are not modelled: `open`, `close`, `startZookeeper`, `startBookKeeper`, the log4j block and `main`. Only the fixed set of nodes start-up creates appears, as `Env.StartupPaths`.
- Leader election (`takeLeadership`, `stateChanged`) is concurrency and monitor waiting. The leader flag is an input field of the environment. The single-call writers take its value when `close` checks it as a separate parameter, because it can be cleared while their transaction is open.
- Keyspaces.PublishingPut: keeps the leader flag fixed across its steps, so it does not show a leadership loss between create, commit and close.
- CRC-32C and the UTF-8 encoding of the name are not modelled. `Keyspaces.Open` takes the name-to-fingerprint function as a parameter, so it is deterministic but otherwise unconstrained. Fingerprint collisions between names are not excluded.
- `System.currentTimeMillis` becomes the `times` parameter, one value per member. `TimeUnit.sleep` is a no-op.
- `Env.CreateLoop`: the unbounded retry is taken over a finite sequence of service replies. When they run out, the result is `Retrying`, since the source call simply has not returned yet. `WriteTransactions.Begin` and the single-call writers require the replies to include a final answer, meaning the constructor returns.
- `Env.CreateLoop`: granted ledger ids are required to be fresh. This is the ledger service's guarantee, not a check in the code.
- `LongCodec.ByteArrayToLong`: Java raises an index error when the window does not fit, and the model makes the window a precondition instead.
- `Env.CreateMarker`: the create and the data reset of the marker count as one step. A failure between the two, which would leave the node created while raising, is not modelled.
- The null-handle guard of `commit` and `abort` in `WriteTransaction` has no counterpart. The constructor either obtains a handle or raises, so the guard never fires.
- `getClusterSize` returning -1 before `open` is not modelled. The cluster size is the number of configured members.
- Concurrent clients appear only as a write that races between our read and our compare-and-swap (`ZkStep.Raced`). Connection failures appear as `ZkStep.ConnectionLost` (the call raises with nothing written) and `ZkStep.LostAfterWrite` (the write is applied but the call raises, as ZooKeeper's connection loss allows). Curator's own retry of a lost call is not modelled separately: its outcome is again one of these steps, since a retry after a write that already landed meets the newer version and fails.
- Replication, digests and durability of ledgers are not modelled, and neither are reading or opening a ledger. The ledger service is a map from id to entries.
- `ReadTransaction`, the `Transaction` interface, `Database.get`/`close`, the local-table side of `drop`, and the LMDB table opened by the `Database` constructor are library pass-throughs with no logic of their own.
- The I/O, printing and ledger reads of the dormant replay loop are not modelled; only its pure arithmetic is. That loop also trims the list at the last member's cursor rather than the minimum. It reads 8-byte slots while commits write 16-byte entries. It is never called.

## Findings

| source | as written | input that shows it | evidently intended | confidence | as-written member | corrected member |
|---|---|---|---|---|---|---|
| src/main/java/rlmdb/Database.java:36 | the key length is cast to a byte with no check | a 256-byte key with an empty value gives the same record as an empty key whose value is those 256 bytes | keys over 255 bytes are refused before any log write | not executed; high | `OpRecord.LongKeyCollision` | `OpRecord.CheckedEncode` |
| src/main/java/rlmdb/WriteTransaction.java:19-22 | `close()` always aborts | a successful commit followed by `close()` with a working delete | close after commit releases without deleting | not executed; high | `WriteTransactions.CloseAfterCommitUnpublishes` | `WriteTransactions.GuardedCloseKeepsPublished` |
| src/main/java/rlmdb/Database.java:39-43 | the single-call put opens, adds and closes, and never commits | any `put(key, value)` on the leader | commit, then close | not executed; high | `Keyspaces.PutSingle` | `Keyspaces.PublishingPut` |
| src/main/java/rlmdb/Env.java:354 | the marker's data reset is conditioned on version 0, but the reset of a fresh node already moved it to version 1 | `openDatabase("a")` twice, or once after a restart | an unconditional reset, so that opening an existing keyspace succeeds | not executed; medium (assumes a default `Stat` carries version 0) | `Keyspaces.ReopenFails` | `Keyspaces.ReopenSucceeds` |
| src/main/java/rlmdb/Env.java:302-306 | start-up never creates `/rlmdb/dbmap`, the parent of every marker | `openDatabase` right after start-up, as `main` does | create the keyspace map node at start-up | not executed; medium (assumes create does not make missing parents) | `Keyspaces.OpenFailsAfterStartup` | `Keyspaces.OpenSucceedsAfterCorrectedStartup` |

=== FILE: base16.dfy ===
/**
 * Upper-case hexadecimal (base16 as defined in section 8 of RFC 4648), the encoding
 * used to turn a keyspace fingerprint into the name of its coordination marker node.
 */
module Base16 {
  import opened Wrappers
  import opened Bytes

  const Alphabet: string := "0123456789ABCDEF"

  /** The digit of a byte's high nibble. */
  function High(x: Byte): char {
    Alphabet[x / 16]
  }

  /** The digit of a byte's low nibble. */
  function Low(x: Byte): char {
    Alphabet[x % 16]
  }

  /** Each byte becomes two characters, high nibble first. */
  function Encode(b: seq<Byte>): (r: string)
    ensures |r| == 2 * |b|
  {
    if |b| == 0 then "" else [High(b[0]), Low(b[0])] + Encode(b[1..])
  }

  /** Characters 2i and 2i+1 of the encoding are the high and low nibble digits of byte i. */
  lemma {:induction false} EncodeAt(b: seq<Byte>, i: nat)
    requires i < |b|
    ensures Encode(b)[2 * i] == High(b[i]) && Encode(b)[2 * i + 1] == Low(b[i])
  {
    if i > 0 {
      var rest := Encode(b[1..]);
      assert Encode(b) == [High(b[0]), Low(b[0])] + rest;
      EncodeAt(b[1..], i - 1);
      assert b[1..][i - 1] == b[i];
    }
  }

  /** The value of one upper-case hexadecimal digit. */
  function DigitValue(c: char): (r: Option<nat>)
    ensures r.Some? ==> r.value < 16 && Alphabet[r.value] == c
  {
    if '0' <= c <= '9' then Some(c as int - '0' as int)
    else if 'A' <= c <= 'F' then Some(c as int - 'A' as int + 10)
    else None
  }

  /** The inverse of `Encode`; fails on odd length or a character outside the alphabet. */
  function Decode(s: string): (r: Option<seq<Byte>>)
    ensures r.Some? ==> 2 * |r.value| == |s|
  {
    if |s| == 0 then Some([])
    else if |s| == 1 || DigitValue(s[0]).None? || DigitValue(s[1]).None? then None
    else match Decode(s[2..])
      case None => None
      case Some(rest) => Some([DigitValue(s[0]).value * 16 + DigitValue(s[1]).value] + rest)
  }

  lemma DigitOfAlphabet(d: nat)
    requires d < 16
    ensures DigitValue(Alphabet[d]) == Some(d)
  {
  }

  /** The two digits of a byte read back as its nibbles, which recombine to the byte. */
  lemma NibbleDigits(x: Byte)
    ensures DigitValue(High(x)) == Some(x / 16) && DigitValue(Low(x)) == Some(x % 16)
    ensures (x / 16) * 16 + x % 16 == x
  {
    DigitOfAlphabet(x / 16);
    DigitOfAlphabet(x % 16);
  }

  /** Two digits naming the nibbles of x, followed by the encoding of rest, decode to x then rest. */
  lemma DecodeStep(s: string, x: Byte, rest: seq<Byte>)
    requires |s| >= 2 && DigitValue(s[0]) == Some(x / 16) && DigitValue(s[1]) == Some(x % 16)
    requires Decode(s[2..]) == Some(rest)
    ensures Decode(s) == Some([x] + rest)
  {
  }

  /** Decoding an encoding gives the bytes back. */
  lemma {:induction false} DecodeEncode(b: seq<Byte>)
    ensures Decode(Encode(b)) == Some(b)
  {
    if |b| > 0 {
      var e := Encode(b);
      assert e == [High(b[0]), Low(b[0])] + Encode(b[1..]);
      assert e[0] == High(b[0]) && e[1] == Low(b[0]) && e[2..] == Encode(b[1..]);
      NibbleDigits(b[0]);
      DecodeEncode(b[1..]);
      DecodeStep(e, b[0], b[1..]);
      assert [b[0]] + b[1..] == b;
    }
  }

  /** Distinct byte strings have distinct encodings. */
  lemma EncodeInjective(a: seq<Byte>, b: seq<Byte>)
    ensures Encode(a) == Encode(b) <==> a == b
  {
    if Encode(a) == Encode(b) {
      DecodeEncode(a);
      DecodeEncode(b);
    }
  }
}

=== FILE: bytes.dfy ===
/**
 * Unsigned bytes and the big-endian reading of a byte string as a natural number.
 * A Java `byte` is signed; every place the system reads one masks it with `0xff`,
 * so the model keeps the unsigned value 0..255 throughout.
 */
module Bytes {

  type Byte = b: int | 0 <= b < 256

  /** 256 to the power k: the number of distinct byte strings of length k. */
  function Pow256(k: nat): (r: nat)
    ensures r >= 1
    ensures k > 0 ==> r % 256 == 0
  {
    if k == 0 then 1 else 256 * Pow256(k - 1)
  }

  /** The value of `s` read most significant byte first. */
  function BeDecode(s: seq<Byte>): (r: nat)
    ensures r < Pow256(|s|)
  {
    if |s| == 0 then 0 else BeDecode(s[..|s| - 1]) * 256 + s[|s| - 1]
  }

  /** The `width`-byte string whose big-endian value is `n`. */
  function BeEncode(n: nat, width: nat): (r: seq<Byte>)
    requires n < Pow256(width)
    ensures |r| == width
    ensures BeDecode(r) == n
  {
    if width == 0 then []
    else
      var r := BeEncode(n / 256, width - 1) + [n % 256];
      assert r[..|r| - 1] == BeEncode(n / 256, width - 1);
      r
  }

  /** Every byte string of length w is the encoding of its own value. */
  lemma {:induction false} EncodeOfDecode(s: seq<Byte>)
    ensures BeEncode(BeDecode(s), |s|) == s
  {
    if |s| > 0 {
      var p := s[..|s| - 1];
      EncodeOfDecode(p);
      var n := BeDecode(s);
      assert n / 256 == BeDecode(p) && n % 256 == s[|s| - 1] by {
        assert n == 256 * BeDecode(p) + s[|s| - 1];
        DivModUnique(n, 256, BeDecode(p), s[|s| - 1]);
      }
      assert BeEncode(n, |s|) == BeEncode(n / 256, |s| - 1) + [n % 256];
      assert s == p + [s[|s| - 1]];
    }
  }

  /** Euclidean division is determined by any quotient/remainder pair. */
  lemma DivModUnique(a: int, d: int, q: int, r: int)
    requires d > 0 && 0 <= r < d && a == d * q + r
    ensures a / d == q && a % d == r
  {
    var q0, r0 := a / d, a % d;
    assert a == d * q0 + r0;
    if q0 > q {
      assert d * q0 >= d * (q + 1) by { MulMono(d, q + 1, q0); }
    } else if q0 < q {
      assert d * q >= d * (q0 + 1) by { MulMono(d, q0 + 1, q); }
    }
  }

  lemma MulMono(d: int, x: int, y: int)
    requires d > 0 && x <= y
    ensures d * x <= d * y
  {
  }

  /** Dividing twice is dividing by the product. */
  lemma DivDiv(a: nat, b: nat, c: nat)
    requires b > 0 && c > 0
    ensures a / b / c == a / (b * c)
  {
    var q := a / b;
    var r1 := a % b;
    var q2 := q / c;
    var r2 := q % c;
    assert a == b * (c * q2 + r2) + r1;
    assert a == (b * c) * q2 + (b * r2 + r1);
    assert b * r2 <= b * (c - 1) by { MulMono(b, r2, c - 1); }
    DivModUnique(a, b * c, q2, b * r2 + r1);
  }

  /** Dropping the last byte of a value below 256^w leaves a value below 256^(w-1). */
  lemma DropLastByte(n: nat, w: nat)
    requires w > 0 && n < Pow256(w)
    ensures n / 256 < Pow256(w - 1)
  {
    assert Pow256(w) == 256 * Pow256(w - 1);
    assert 256 * (n / 256) <= n;
  }

  /** Byte i of a big-endian encoding is the value shifted right by the bytes after it, masked to 8 bits. */
  lemma {:induction false} EncodeDigit(n: nat, width: nat, i: nat)
    requires n < Pow256(width)
    requires i < width
    ensures BeEncode(n, width)[i] == (n / Pow256(width - 1 - i)) % 256
  {
    DropLastByte(n, width);
    var prefix := BeEncode(n / 256, width - 1);
    assert BeEncode(n, width) == prefix + [n % 256];
    if i < width - 1 {
      var k := width - 1 - i;
      assert prefix[i] == (n / 256 / Pow256(k - 1)) % 256 by {
        EncodeDigit(n / 256, width - 1, i);
      }
      assert n / 256 / Pow256(k - 1) == n / Pow256(k) by {
        DivDiv(n, 256, Pow256(k - 1));
        assert 256 * Pow256(k - 1) == Pow256(k);
      }
    }
  }
}

=== FILE: coordination.dfy ===
/**
 * The coordination service (ZooKeeper through Curator) as abstract state: a versioned
 * data node per cluster member holding that member's log list. A write conditioned on a
 * version succeeds only when the node still has that version.
 */
module Coordination {
  import opened Wrappers
  import opened Bytes
  import opened LongCodec

  type MemberId = Int64

  datatype Node = Node(data: seq<Byte>, version: nat)

  type Store = map<MemberId, Node>

  /**
   * What happens around one read-then-conditional-write of a member's node:
   * nothing else touches it, another client writes `other` between our read and our write,
   * the connection fails before our write reached the server, or it fails after, so the write
   * is applied but the call still raises.
   */
  datatype ZkStep = Quiet | Raced(other: seq<Byte>) | ConnectionLost | LostAfterWrite

  /** The node is as it was (present with the same value, or absent in both). */
  predicate Same(s: Store, t: Store, p: MemberId) {
    (p in s <==> p in t) && (p in s ==> s[p] == t[p])
  }

  /** `setData().withVersion(expected)`: a compare-and-swap on the node's version. */
  function Cas(s: Store, p: MemberId, expected: nat, data: seq<Byte>): (r: Option<Store>)
    ensures r.Some? <==> p in s && s[p].version == expected
    ensures r.Some? ==> r.value.Keys == s.Keys && r.value[p] == Node(data, expected + 1)
    ensures r.Some? ==> forall q :: q != p ==> Same(s, r.value, q)
  {
    if p in s && s[p].version == expected then Some(s[p := Node(data, expected + 1)]) else None
  }

  /**
   * Read member `p`'s node with its version, then write `data ++ suffix` back conditioned on
   * that version (one iteration of the commit loop). Returns the new store and whether the
   * call reported success; after `LostAfterWrite` the write is in the store although the call failed.
   */
  function AppendWithVersion(s: Store, p: MemberId, suffix: seq<Byte>, step: ZkStep): (r: (Store, bool))
    ensures r.1 <==> step.Quiet? && p in s
    ensures r.1 ==> r.0 == s[p := Node(s[p].data + suffix, s[p].version + 1)]
    ensures r.0.Keys == s.Keys
    ensures forall q :: q != p ==> Same(s, r.0, q)
    ensures step.Raced? && p in s ==> !r.1 && r.0 == s[p := Node(step.other, s[p].version + 1)]
    ensures step.LostAfterWrite? && p in s ==> !r.1 && r.0 == s[p := Node(s[p].data + suffix, s[p].version + 1)]
    ensures !r.1 && !step.Raced? && !(step.LostAfterWrite? && p in s) ==> r.0 == s
  {
    if step.ConnectionLost? || p !in s then (s, false)
    else
      var read := s[p];
      var current := if step.Raced? then s[p := Node(step.other, read.version + 1)] else s;
      match Cas(current, p, read.version, read.data + suffix)
      case Some(written) => (written, !step.LostAfterWrite?)
      case None => (current, false)
  }
}

=== FILE: database.dfy ===
/**
 * `Database`: a named keyspace multiplexed over the shared ledger stream. Its 4-byte id is
 * the CRC-32C of the name's bytes; puts and deletes become operation records added to a
 * write transaction.
 */
module Keyspaces {
  import opened Wrappers
  import opened Bytes
  import opened LongCodec
  import LedgerService
  import opened Coordination
  import opened LogList
  import opened OpRecord
  import opened Env
  import opened WriteTransactions

  /** CRC-32C of the name's bytes; the checksum itself is outside this model. */
  type NameHash = string -> Fingerprint

  /** A keyspace: its name and the id computed once from it. */
  datatype Database = Database(name: string, id: Fingerprint) {
    function GetId(): Fingerprint {
      id
    }
  }

  /**
   * `Env.openDatabase` with the `Database` constructor: ensures the keyspace's marker node,
   * then makes the keyspace whose id is the hash of its name.
   */
  function Open(e: Env, name: string, hash: NameHash, ok: bool): (r: Step<Database>)
    ensures r.result.Success? <==> ok && DbNameMapPath in e.paths && MarkerPath(hash(name)) !in e.paths
    ensures r.result.Failure? ==> r == Step(e, Failure(CoordinationFailure))
    ensures r.result.Success? ==> r.result.value.name == name && r.result.value.id == hash(name)
    ensures r.result.Success? ==> r.env.paths == e.paths + {MarkerPath(r.result.value.id)}
    ensures r.env.ledgers == e.ledgers && r.env.logLists == e.logLists
    ensures r.env.leader == e.leader && r.env.members == e.members
  {
    match CreateMarker(e, hash(name), ok)
    case Success(e1) => Step(e1, Success(Database(name, hash(name))))
    case Failure(err) => Step(e, Failure(err))
  }

  /**
   * As written, a keyspace cannot be opened twice: the second marker reset finds version 1 where
   * it demands version 0, so reopening by name (after a restart, or from a second handle) fails.
   */
  lemma ReopenFails(e: Env, name: string, hash: NameHash, ok1: bool, ok2: bool)
    requires Open(e, name, hash, ok1).result.Success?
    ensures var o := Open(e, name, hash, ok1);
      Open(o.env, name, hash, ok2) == Step(o.env, Failure(CoordinationFailure))
  {
  }

  /** Corrected `openDatabase`, creating the marker with an unconditional reset. */
  function OpenOrReuse(e: Env, name: string, hash: NameHash, ok: bool): (r: Step<Database>)
    ensures r.result.Success? <==> ok && DbNameMapPath in e.paths
    ensures r.result.Failure? ==> r == Step(e, Failure(CoordinationFailure))
    ensures r.result.Success? ==> r.result.value == Database(name, hash(name))
    ensures r.result.Success? ==> r.env.paths == e.paths + {MarkerPath(hash(name))}
    ensures r.env.ledgers == e.ledgers && r.env.logLists == e.logLists
  {
    match EnsureMarker(e, hash(name), ok)
    case Success(e1) => Step(e1, Success(Database(name, hash(name))))
    case Failure(err) => Step(e, Failure(err))
  }

  /** With the corrected creation, opening again returns the same keyspace and changes nothing. */
  lemma ReopenSucceeds(e: Env, name: string, hash: NameHash, ok: bool)
    requires OpenOrReuse(e, name, hash, ok).result.Success?
    ensures var o := OpenOrReuse(e, name, hash, ok);
      OpenOrReuse(o.env, name, hash, true) == o
  {
  }

  /** `drop()`: removes the keyspace's marker node by its id (the local table is not modelled). */
  function Drop(e: Env, db: Database, ok: bool): (r: Result<Env, Error>)
    ensures r.Success? <==> ok && MarkerPath(db.id) in e.paths
    ensures r.Success? ==> r.value.paths == e.paths - {MarkerPath(db.id)}
    ensures r.Success? ==> r.value.ledgers == e.ledgers && r.value.logLists == e.logLists
    ensures r.Success? ==> r.value.leader == e.leader && r.value.members == e.members
  {
    DropDatabase(e, db.GetId(), ok)
  }

  /** An opened keyspace's id is its name's fingerprint, and `drop` removes the marker under that id. */
  lemma OpenedId(e: Env, name: string, hash: NameHash, ok: bool, dropOk: bool)
    requires Open(e, name, hash, ok).result.Success?
    ensures var o := Open(e, name, hash, ok);
      && o.result.value.GetId() == hash(name)
      && Drop(o.env, o.result.value, dropOk) == DropDatabase(o.env, hash(name), dropOk)
  {
  }

  /** The marker `drop` removes is the one `openDatabase` of the same name created, and only that one. */
  lemma DropUndoesOpen(e: Env, name: string, hash: NameHash, ok: bool)
    requires Open(e, name, hash, ok).result.Success?
    ensures var o := Open(e, name, hash, ok);
      var d := Drop(o.env, o.result.value, true);
      d.Success? && d.value.paths == e.paths
  {
  }

  /** Keyspaces opened under one name share id, put prefix and delete prefix; different ids have different markers. */
  lemma SameNameSameId(e1: Env, e2: Env, name: string, hash: NameHash, ok1: bool, ok2: bool)
    requires Open(e1, name, hash, ok1).result.Success? && Open(e2, name, hash, ok2).result.Success?
    ensures var a := Open(e1, name, hash, ok1).result.value;
      var b := Open(e2, name, hash, ok2).result.value;
      a == b && PutPrefix(a.id) == PutPrefix(b.id) && DeletePrefix(a.id) == DeletePrefix(b.id)
  {
  }

  /**
   * As written, start-up never creates the keyspace map node, so creating a marker under it
   * fails and no keyspace can be opened in a freshly started cluster.
   */
  lemma OpenFailsAfterStartup(e: Env, name: string, hash: NameHash, ok: bool)
    requires e.paths == StartupPaths
    ensures Open(e, name, hash, ok) == Step(e, Failure(CoordinationFailure))
  {
    assert DbNameMapPath !in StartupPaths;
  }

  /** With the keyspace map created at start-up, opening succeeds whenever the coordination call does. */
  lemma OpenSucceedsAfterCorrectedStartup(e: Env, name: string, hash: NameHash)
    requires e.paths == StartupPathsWithMap
    ensures Open(e, name, hash, true).result.Success?
    ensures MarkerPath(hash(name)) in Open(e, name, hash, true).env.paths
  {
  }

  /** `put(tx, key, value)`: adds exactly one put record to the transaction, writing nothing locally. */
  function PutTx(e: Env, db: Database, tx: WriteTx, key: seq<Byte>, value: seq<Byte>, ok: bool): (r: Step<()>)
    ensures r.result.Success? <==> ok && tx.ledger in e.ledgers && !e.ledgers[tx.ledger].closed
    ensures r.result.Failure? ==> r.env == e
    ensures r.env.ledgers.Keys == e.ledgers.Keys
    ensures r.result.Success? ==> r.env.ledgers[tx.ledger].entries == e.ledgers[tx.ledger].entries + [PutRecord(db.id, key, value)]
    ensures r.result.Success? ==>
      r.env.ledgers[tx.ledger] == e.ledgers[tx.ledger].(entries := e.ledgers[tx.ledger].entries + [PutRecord(db.id, key, value)])
    ensures r.result.Success? && |key| <= 255 ==>
      Decode(Last(r.env.ledgers[tx.ledger].entries)) == Some(Put(db.id, key, value))
    ensures forall other :: other in e.ledgers && other != tx.ledger ==> r.env.ledgers[other] == e.ledgers[other]
    ensures r.env.logLists == e.logLists && r.env.paths == e.paths
    ensures r.env.leader == e.leader && r.env.members == e.members
  {
    if |key| <= 255 then
      DecodeEncode(Put(db.id, key, value));
      Add(e, tx, PutRecord(db.id, key, value), ok)
    else Add(e, tx, PutRecord(db.id, key, value), ok)
  }

  /** `delete(tx, key)`: adds exactly one delete record to the transaction. */
  function DeleteTx(e: Env, db: Database, tx: WriteTx, key: seq<Byte>, ok: bool): (r: Step<()>)
    ensures r.result.Success? <==> ok && tx.ledger in e.ledgers && !e.ledgers[tx.ledger].closed
    ensures r.result.Failure? ==> r.env == e
    ensures r.env.ledgers.Keys == e.ledgers.Keys
    ensures r.result.Success? ==> r.env.ledgers[tx.ledger].entries == e.ledgers[tx.ledger].entries + [DeleteRecord(db.id, key)]
    ensures r.result.Success? ==>
      r.env.ledgers[tx.ledger] == e.ledgers[tx.ledger].(entries := e.ledgers[tx.ledger].entries + [DeleteRecord(db.id, key)])
    ensures r.result.Success? && |key| <= 255 ==>
      Decode(Last(r.env.ledgers[tx.ledger].entries)) == Some(Delete(db.id, key))
    ensures forall other :: other in e.ledgers && other != tx.ledger ==> r.env.ledgers[other] == e.ledgers[other]
    ensures r.env.logLists == e.logLists && r.env.paths == e.paths
    ensures r.env.leader == e.leader && r.env.members == e.members
  {
    if |key| <= 255 then
      DecodeEncode(Delete(db.id, key));
      Add(e, tx, DeleteRecord(db.id, key), ok)
    else Add(e, tx, DeleteRecord(db.id, key), ok)
  }

  function Last<T>(s: seq<T>): T
    requires |s| > 0
  {
    s[|s| - 1]
  }

  /**
   * The single-operation form: open a write transaction, add the record, and let
   * try-with-resources close it, which aborts it. Nothing calls `commit`, so no member's log
   * list ever changes. The leader flag is volatile and may be cleared while the transaction is
   * open; `leaderAtClose` is its value when `close` checks it again. On a node still leading at
   * that point, once the delete goes through, the ledgers are as before.
   */
  function WriteOne(e: Env, record: seq<Byte>, replies: seq<LedgerService.CreateReply>, addOk: bool,
                    leaderAtClose: bool, closeOk: bool, deleteOk: bool): (r: Step<()>)
    requires FreshReplies(e, replies) && Completes(replies)
    ensures r.env.logLists == e.logLists && r.env.paths == e.paths
    ensures deleteOk && leaderAtClose ==> r.env.ledgers == e.ledgers
    ensures r.result.Success? ==> e.leader && leaderAtClose && addOk
    ensures !e.leader ==> r == Step(e, Failure(NotLeader))
  {
    var b := Begin(e, replies);
    match b.result
    case Failure(err) => Step(e, Failure(err))
    case Success(tx) =>
      var a := Add(b.env, tx, record, addOk);
      var c := Close(a.env.(leader := leaderAtClose), tx, closeOk, deleteOk);
      assert deleteOk && leaderAtClose ==> c.env.ledgers.Keys == e.ledgers.Keys;
      Step(c.env, if a.result.Failure? then a.result else c.result)
  }

  /**
   * Leadership lost between `createLedger` and `close`: `close` raises NotLeader before it closes
   * or deletes anything, so the new ledger is left behind, open, holding the record if it was added.
   */
  lemma OrphanWhenLeadershipLost(e: Env, record: seq<Byte>, replies: seq<LedgerService.CreateReply>, addOk: bool, closeOk: bool, deleteOk: bool)
    requires FreshReplies(e, replies) && Completes(replies)
    requires Begin(e, replies).result.Success?
    ensures var id := Begin(e, replies).result.value.ledger;
      var r := WriteOne(e, record, replies, addOk, false, closeOk, deleteOk);
      && r.result == Failure(if addOk then NotLeader else AddFailure)
      && id !in e.ledgers
      && r.env.ledgers.Keys == e.ledgers.Keys + {id}
      && !r.env.ledgers[id].closed
      && r.env.ledgers[id].entries == if addOk then [record] else []
  {
  }

  /** `put(key, value)` as written. */
  function PutSingle(e: Env, db: Database, key: seq<Byte>, value: seq<Byte>, replies: seq<LedgerService.CreateReply>, addOk: bool,
                     leaderAtClose: bool, closeOk: bool, deleteOk: bool): (r: Step<()>)
    requires FreshReplies(e, replies) && Completes(replies)
    ensures r.env.logLists == e.logLists
    ensures deleteOk && leaderAtClose ==> r.env.ledgers == e.ledgers
    ensures r.result.Success? ==> e.leader && leaderAtClose && addOk
  {
    WriteOne(e, PutRecord(db.id, key, value), replies, addOk, leaderAtClose, closeOk, deleteOk)
  }

  /** `delete(key)` as written. */
  function DeleteSingle(e: Env, db: Database, key: seq<Byte>, replies: seq<LedgerService.CreateReply>, addOk: bool,
                        leaderAtClose: bool, closeOk: bool, deleteOk: bool): (r: Step<()>)
    requires FreshReplies(e, replies) && Completes(replies)
    ensures r.env.logLists == e.logLists
    ensures deleteOk && leaderAtClose ==> r.env.ledgers == e.ledgers
    ensures r.result.Success? ==> e.leader && leaderAtClose && addOk
  {
    WriteOne(e, DeleteRecord(db.id, key), replies, addOk, leaderAtClose, closeOk, deleteOk)
  }

  // ---------------------------------------------------------------------------
  // Corrected writers: refuse long keys, commit, and close without undoing the commit.

  /** `put(tx, key, value)` with the length check the record format needs. */
  function CheckedPutTx(e: Env, db: Database, tx: WriteTx, key: seq<Byte>, value: seq<Byte>, ok: bool): (r: Step<()>)
    ensures |key| > 255 ==> r == Step(e, Failure(Error.KeyTooLong))
    ensures r.result.Success? ==> |key| <= 255 && tx.ledger in e.ledgers
    ensures r.env.ledgers.Keys == e.ledgers.Keys
    ensures r.result.Success? ==>
      r.env.ledgers[tx.ledger].entries == e.ledgers[tx.ledger].entries + [Encode(Put(db.id, key, value))]
    ensures r.result.Success? ==> Decode(Last(r.env.ledgers[tx.ledger].entries)) == Some(Put(db.id, key, value))
    ensures r.env.logLists == e.logLists
  {
    match CheckedEncode(Put(db.id, key, value))
    case Failure(_) => Step(e, Failure(Error.KeyTooLong))
    case Success(record) => Add(e, tx, record, ok)
  }

  /**
   * The single-operation put as intended: check the key, add the record, commit, then close
   * (a no-op after a commit). On success the new ledger holds exactly that one record, is
   * closed, and every member's log list has gained its entry.
   */
  function PublishingPut(e: Env, db: Database, key: seq<Byte>, value: seq<Byte>, replies: seq<LedgerService.CreateReply>, addOk: bool,
                         closeOk: bool, steps: seq<ZkStep>, times: seq<Int64>, deleteOk: bool): (r: Step<LedgerService.LedgerId>)
    requires FreshReplies(e, replies) && Completes(replies)
    requires |steps| == |e.members| && |times| == |e.members|
    ensures |key| > 255 ==> r.result.Failure?
    ensures r.result.Success? ==> r.result.value !in e.ledgers && r.result.value in r.env.ledgers
    ensures r.result.Success? ==> var l := r.env.ledgers[r.result.value];
      && l.closed && |l.entries| == 1
      && Decode(l.entries[0]) == Some(Put(db.id, key, value))
    ensures r.result.Success? ==> forall i :: 0 <= i < |e.members| ==>
      Appended(e.logLists, r.env.logLists, e.members[i], EntryBytes(r.result.value, times[i]))
  {
    var b := Begin(e, replies);
    match b.result
    case Failure(err) => Step(e, Failure(err))
    case Success(tx) =>
      var a := CheckedPutTx(b.env, db, tx, key, value, addOk);
      var gtx := GuardedTx(tx.ledger, Active);
      if a.result.Failure? then
        var c := GuardedClose(a.env, gtx, closeOk, deleteOk);
        Step(c.env, Failure(a.result.error))
      else
        assert a.env.members == e.members;
        var m := GuardedCommit(a.env, gtx, closeOk, steps, times, deleteOk);
        var c := GuardedClose(m.env, m.tx, closeOk, deleteOk);
        if m.result.Failure? then Step(c.env, Failure(m.result.error))
        else Step(c.env, Success(tx.ledger))
  }
}

=== FILE: env.dfy ===
/**
 * `Env`: the leader-only ledger lifecycle and the coordination marker of each keyspace.
 * The environment is an immutable record; each operation returns the next environment.
 * The leader flag is an input (elections are external), and every external call that can
 * fail takes its outcome as a parameter.
 */
module Env {
  import opened Wrappers
  import opened Bytes
  import opened LongCodec
  import opened LedgerService
  import opened Coordination
  import opened LogList
  import opened OpRecord
  import Base16

  predicate Distinct(ms: seq<MemberId>) {
    forall i, j :: 0 <= i < j < |ms| ==> ms[i] != ms[j]
  }

  /** The configured servers, in the order the commit loop visits them (a map's key set: no repeats). */
  type Members = ms: seq<MemberId> | Distinct(ms) witness []

  datatype Error =
    | NotLeader
    | CreateFailure           // a non-recoverable ledger-creation error, rethrown as a runtime error
    | AddFailure              // `addEntry` raised
    | CommitFailure(ledger: LedgerId)
    | CoordinationFailure     // a marker node could not be created or removed
    | KeyTooLong              // refused by the corrected keyspace writer only

  /**
   * leader: this member's election flag; members: the cluster configuration;
   * ledgers: the ledger service; logLists: each member's log-list node;
   * paths: the other coordination nodes (the keyspace map and its markers).
   */
  datatype Env = Env(leader: bool, members: Members, ledgers: Ledgers, logLists: Store, paths: set<string>)

  /** The environment after a call, and what the call returned or raised. */
  datatype Step<T> = Step(env: Env, result: Result<T, Error>)

  const DbNameMapPath: string := "/rlmdb/dbmap"

  /** The fixed coordination nodes the start-up sequence creates (the per-member nodes aside). */
  const StartupPaths: set<string> := {"/ledgers", "/available", "/rlmdb", "/rlmdb/log", "/rlmdb/log/removed"}

  /** The start-up nodes with the keyspace map added, which marker creation needs as parent. */
  const StartupPathsWithMap: set<string> := StartupPaths + {DbNameMapPath}

  /** The marker node of a keyspace: its fingerprint in upper-case hexadecimal under the keyspace map. */
  function MarkerPath(id: Fingerprint): (p: string)
    ensures |p| == |DbNameMapPath| + 9 && p[..|DbNameMapPath| + 1] == DbNameMapPath + "/"
  {
    DbNameMapPath + "/" + Base16.Encode(id)
  }

  /** Distinct fingerprints have distinct marker nodes. */
  lemma MarkerPathInjective(a: Fingerprint, b: Fingerprint)
    ensures MarkerPath(a) == MarkerPath(b) <==> a == b
  {
    if MarkerPath(a) == MarkerPath(b) {
      var n := |DbNameMapPath| + 1;
      assert MarkerPath(a)[n..] == Base16.Encode(a);
      assert MarkerPath(b)[n..] == Base16.Encode(b);
      Base16.EncodeInjective(a, b);
    }
  }

  // ---------------------------------------------------------------------------
  // createLedger

  /** Write and ack quorum for an ensemble of n: all of a small ensemble, else all but one. */
  function Quorum(n: int): (m: int)
    ensures m == n || m == n - 1
    ensures n >= 1 ==> 1 <= m <= n && n < 2 * m
    ensures n > 2 <==> m < n
  {
    if n > 2 then n - 1 else n
  }

  /** One `createLedger(n, m, m, ...)` request made by the retry loop. */
  datatype Attempt = Attempt(ensemble: int, quorum: int)

  /**
   * Where the creation loop stands after the service's replies so far: it returned a handle,
   * it raised, or it is still retrying with the given ensemble size (the source loop never gives up).
   * `calls` lists the requests made, in order.
   */
  datatype Creation =
    | Created(env: Env, id: LedgerId, calls: seq<Attempt>)
    | Raised(err: Error, calls: seq<Attempt>)
    | Retrying(ensemble: int, calls: seq<Attempt>)

  /** The ledger service hands out ids it has not used. */
  predicate FreshReplies(e: Env, replies: seq<CreateReply>) {
    forall i :: 0 <= i < |replies| && replies[i].Granted? ==> replies[i].id !in e.ledgers
  }

  /** Each request after the first shrinks the ensemble by one while it is above 2, else repeats it. */
  predicate Degrades(calls: seq<Attempt>) {
    forall i :: 0 < i < |calls| ==>
      calls[i].ensemble == (if calls[i - 1].ensemble > 2 then calls[i - 1].ensemble - 1 else calls[i - 1].ensemble)
  }

  /** The requests of k rounds from ensemble size n, each with its majority quorum. */
  function Attempts(n: int, k: nat): (r: seq<Attempt>)
    ensures |r| == k && (k > 0 ==> r[0] == Attempt(n, Quorum(n)))
  {
    if k == 0 then [] else [Attempt(n, Quorum(n))] + Attempts(if n > 2 then n - 1 else n, k - 1)
  }

  /** Every request in a run of rounds uses the majority quorum, and the sizes degrade. */
  lemma {:induction false} AttemptsShape(n: int, k: nat)
    ensures forall i :: 0 <= i < k ==> Attempts(n, k)[i].quorum == Quorum(Attempts(n, k)[i].ensemble)
    ensures Degrades(Attempts(n, k))
  {
    if k > 0 {
      var m := if n > 2 then n - 1 else n;
      var rest := Attempts(m, k - 1);
      AttemptsShape(m, k - 1);
      assert Attempts(n, k) == [Attempt(n, Quorum(n))] + rest;
      assert forall i :: 0 < i < k ==> Attempts(n, k)[i] == rest[i - 1];
    }
  }

  /** After a first refusal, the replies seen by the rest of the loop are the same replies shifted by one. */
  lemma RefusalShift(replies: seq<CreateReply>, m: nat)
    requires |replies| > 0 && replies[0].NotEnoughBookies? && m < |replies|
    requires forall i :: 0 <= i < m - 1 ==> replies[1..][i].NotEnoughBookies?
    ensures forall i :: 0 <= i < m ==> replies[i].NotEnoughBookies?
    ensures m > 0 ==> replies[m] == replies[1..][m - 1]
    ensures (forall i :: 0 <= i < |replies| - 1 ==> replies[1..][i].NotEnoughBookies?) ==>
      forall i :: 0 <= i < |replies| ==> replies[i].NotEnoughBookies?
  {
    assert forall i :: 0 < i < |replies| ==> replies[i] == replies[1..][i - 1];
  }

  /** The environment with one more ledger, open and empty. */
  function WithNewLedger(e: Env, id: LedgerId, call: Attempt): Env {
    e.(ledgers := e.ledgers[id := NewLedger(call.ensemble, call.quorum)])
  }

  /** The retry loop of `createLedger` from ensemble size n, fed the service's successive replies. */
  function CreateLoop(e: Env, n: int, replies: seq<CreateReply>): (r: Creation)
    requires FreshReplies(e, replies)
    ensures |replies| == 0 ==> r == Retrying(n, [])
    ensures |replies| > 0 ==> 1 <= |r.calls| <= |replies| && r.calls[0].ensemble == n
    ensures forall i :: 0 <= i < |r.calls| ==> r.calls[i].quorum == Quorum(r.calls[i].ensemble)
    ensures Degrades(r.calls) && r.calls == Attempts(n, |r.calls|)
    ensures forall i :: 0 <= i < |r.calls| - 1 ==> replies[i].NotEnoughBookies?
    ensures r.Retrying? ==> |r.calls| == |replies| && forall i :: 0 <= i < |replies| ==> replies[i].NotEnoughBookies?
    ensures r.Raised? ==> r.err == CreateFailure && replies[|r.calls| - 1].OtherFailure?
    ensures r.Created? ==> replies[|r.calls| - 1] == Granted(r.id) && r.id !in e.ledgers
    ensures r.Created? ==> r.env == WithNewLedger(e, r.id, r.calls[|r.calls| - 1])
    decreases |replies|
  {
    if |replies| == 0 then Retrying(n, [])
    else
      var call := Attempt(n, Quorum(n));
      match replies[0]
      case Granted(id) => Created(WithNewLedger(e, id, call), id, [call])
      case OtherFailure => Raised(CreateFailure, [call])
      case NotEnoughBookies =>
        FreshTail(e, replies);
        var rest := CreateLoop(e, if n > 2 then n - 1 else n, replies[1..]);
        AttemptsShape(n, |rest.calls| + 1);
        RefusalShift(replies, |rest.calls|);
        rest.(calls := [call] + rest.calls)
  }

  /**
   * `Env.createLedger`: refuses with NotLeader (making no request) when this member is not
   * leader; otherwise runs the retry loop from ensemble size = cluster size.
   */
  function CreateLedger(e: Env, replies: seq<CreateReply>): (r: Creation)
    requires FreshReplies(e, replies)
    ensures !e.leader ==> r == Raised(NotLeader, [])
    ensures e.leader && |replies| > 0 ==> |r.calls| > 0 && r.calls[0] == Attempt(|e.members|, Quorum(|e.members|))
    ensures r.Created? ==> e.leader && r.id !in e.ledgers
    ensures r.Created? ==> r.env.ledgers.Keys == e.ledgers.Keys + {r.id}
    ensures r.Created? ==> r.env.ledgers[r.id].entries == [] && !r.env.ledgers[r.id].closed
    ensures r.Created? ==> forall other :: other in e.ledgers ==> r.env.ledgers[other] == e.ledgers[other]
    ensures r.Created? ==> r.env.logLists == e.logLists && r.env.paths == e.paths
    ensures r.Created? ==> r.env.leader == e.leader && r.env.members == e.members
  {
    if !e.leader then Raised(NotLeader, [])
    else CreateLoop(e, |e.members|, replies)
  }

  /** t consecutive NotEnoughBookies replies. */
  function Rejections(t: nat): (rs: seq<CreateReply>)
    ensures |rs| == t && forall i :: 0 <= i < t ==> rs[i].NotEnoughBookies?
  {
    seq(t, _ => NotEnoughBookies)
  }

  /** The service's replies when it refuses every ensemble above k and grants `id` at k. */
  predicate RefusesAbove(replies: seq<CreateReply>, n: int, k: int, id: LedgerId) {
    && 0 <= n - k && |replies| == n - k + 1
    && replies[n - k] == Granted(id)
    && forall i :: 0 <= i < n - k ==> replies[i].NotEnoughBookies?
  }

  /** A refusal costs one request at the current size and hands the rest of the loop the next size. */
  lemma LoopRefused(e: Env, n: int, replies: seq<CreateReply>)
    requires FreshReplies(e, replies) && |replies| > 0 && replies[0].NotEnoughBookies?
    ensures FreshReplies(e, replies[1..])
    ensures var r := CreateLoop(e, n, replies);
      var rest := CreateLoop(e, if n > 2 then n - 1 else n, replies[1..]);
      && r.calls == [Attempt(n, Quorum(n))] + rest.calls
      && (r.Created? <==> rest.Created?)
      && (rest.Created? ==> r.env == rest.env && r.id == rest.id)
  {
    FreshTail(e, replies);
  }

  /** Fresh replies stay fresh once the first one is consumed. */
  lemma FreshTail(e: Env, replies: seq<CreateReply>)
    requires FreshReplies(e, replies) && |replies| > 0
    ensures FreshReplies(e, replies[1..])
  {
    forall i | 0 <= i < |replies| - 1 && replies[1..][i].Granted?
      ensures replies[1..][i].id !in e.ledgers
    {
      assert replies[1..][i] == replies[i + 1];
    }
  }

  /** A service that refuses above k and then grants is answered with a handle after n - k + 1 requests. */
  lemma {:induction false} RefusedThenGranted(e: Env, n: int, k: int, id: LedgerId, replies: seq<CreateReply>)
    requires 2 <= k <= n && id !in e.ledgers
    requires RefusesAbove(replies, n, k, id)
    ensures FreshReplies(e, replies)
    ensures var r := CreateLoop(e, n, replies);
      r.Created? && r.id == id && |r.calls| == n - k + 1
  {
    assert FreshReplies(e, replies);
    if n > k {
      var tail := replies[1..];
      assert RefusesAbove(tail, n - 1, k, id);
      LoopRefused(e, n, replies);
      RefusedThenGranted(e, n - 1, k, id, tail);
    }
  }

  /** Requests that start at n and degrade by one from above 2 ask for n - i at step i, down to k >= 2. */
  lemma {:induction false} DegradingSizes(calls: seq<Attempt>, n: int, k: int, j: int)
    requires Degrades(calls) && 2 <= k <= n && |calls| == n - k + 1 && calls[0].ensemble == n
    requires 0 <= j < |calls|
    ensures calls[j].ensemble == n - j
  {
    if j > 0 {
      DegradingSizes(calls, n, k, j - 1);
    }
  }

  /**
   * Against a service that refuses every ensemble above k (k >= 2), the loop asks for
   * n, n-1, ..., k in that order and then holds a ledger of ensemble k.
   */
  lemma DegradeToFit(e: Env, n: int, k: int, id: LedgerId, replies: seq<CreateReply>)
    requires 2 <= k <= n && id !in e.ledgers
    requires RefusesAbove(replies, n, k, id)
    ensures FreshReplies(e, replies)
    ensures var r := CreateLoop(e, n, replies);
      && r.Created? && r.id == id
      && |r.calls| == n - k + 1
      && (forall i :: 0 <= i < |r.calls| ==> r.calls[i].ensemble == n - i)
      && r.env.ledgers[id] == NewLedger(k, Quorum(k))
  {
    RefusedThenGranted(e, n, k, id, replies);
    var r := CreateLoop(e, n, replies);
    forall i | 0 <= i < |r.calls|
      ensures r.calls[i].ensemble == n - i
    {
      DegradingSizes(r.calls, n, k, i);
    }
  }

  /** `createLedger` on a leader with cluster size n and a service refusing ensembles above k settles on k. */
  lemma CreateLedgerDegrades(e: Env, k: int, id: LedgerId)
    requires e.leader && 2 <= k <= |e.members| && id !in e.ledgers
    ensures FreshReplies(e, Rejections(|e.members| - k) + [Granted(id)])
    ensures var r := CreateLedger(e, Rejections(|e.members| - k) + [Granted(id)]);
      && r.Created? && r.id == id
      && (forall i :: 0 <= i < |r.calls| ==> r.calls[i].ensemble == |e.members| - i)
      && r.env.ledgers[id].ensemble == k && r.env.ledgers[id].writeQuorum == Quorum(k)
  {
    var replies := Rejections(|e.members| - k) + [Granted(id)];
    DegradeToFit(e, |e.members|, k, id, replies);
  }

  function Max(a: int, b: int): int {
    if a >= b then a else b
  }

  /**
   * The ensemble never shrinks below 2: a service that can never host two replicas keeps
   * the loop retrying at size 2 forever.
   */
  lemma {:induction false} NeverBelowTwo(e: Env, n: int, t: nat)
    requires n >= 2
    ensures FreshReplies(e, Rejections(t))
    ensures var r := CreateLoop(e, n, Rejections(t));
      && r.Retrying? && |r.calls| == t
      && (forall i :: 0 <= i < t ==> r.calls[i].ensemble == Max(2, n - i))
  {
    var r := CreateLoop(e, n, Rejections(t));
    if t > 0 {
      assert !Rejections(t)[|r.calls| - 1].OtherFailure? && !Rejections(t)[|r.calls| - 1].Granted?;
    }
    AttemptSizes(n, t);
  }

  /** From size n >= 2, round i asks for an ensemble of max(2, n - i). */
  lemma {:induction false} AttemptSizes(n: int, t: nat)
    requires n >= 2
    ensures forall i :: 0 <= i < t ==> Attempts(n, t)[i].ensemble == Max(2, n - i)
  {
    if t > 0 {
      var m := if n > 2 then n - 1 else n;
      AttemptSizes(m, t - 1);
      assert forall i :: 0 < i < t ==> Attempts(n, t)[i] == Attempts(m, t - 1)[i - 1];
    }
  }

  // ---------------------------------------------------------------------------
  // commitLedger

  /** Member p's node now holds its old value followed by `suffix`, one version later. */
  predicate Appended(before: Store, after: Store, p: MemberId, suffix: seq<Byte>) {
    p in before && p in after && after[p] == Node(before[p].data + suffix, before[p].version + 1)
  }

  /** Another client's write of `other` won the race on member p's node, one version on from before. */
  predicate Overwritten(before: Store, after: Store, p: MemberId, other: seq<Byte>) {
    p in before && p in after && after[p] == Node(other, before[p].version + 1)
  }

  /** How far the commit loop got: the store, how many members it updated, whether it stopped on a failure. */
  datatype Run = Run(store: Store, written: nat, failed: bool)

  /** The log-list entry of `ledger` for each member, stamped with that member's time. */
  function Suffixes(ledger: LedgerId, times: seq<Int64>): (r: seq<seq<Byte>>)
    ensures |r| == |times| && forall i :: 0 <= i < |times| ==> r[i] == EntryBytes(ledger, times[i])
  {
    seq(|times|, i requires 0 <= i < |times| => EntryBytes(ledger, times[i]))
  }

  /**
   * The loop of `commitLedger` over the members: member i gets `suffixes[i]` appended with a
   * version-conditioned write, and the loop stops at the first failure.
   */
  function AppendAll(s: Store, ms: seq<MemberId>, suffixes: seq<seq<Byte>>, steps: seq<ZkStep>): (r: Run)
    requires Distinct(ms) && |suffixes| == |ms| && |steps| == |ms|
    ensures r.written <= |ms| && (r.failed <==> r.written < |ms|)
    ensures r.store.Keys == s.Keys
    ensures forall i :: 0 <= i < r.written ==> steps[i].Quiet? && Appended(s, r.store, ms[i], suffixes[i])
    ensures r.failed ==> !(steps[r.written].Quiet? && ms[r.written] in s)
    ensures r.failed && steps[r.written].Raced? && ms[r.written] in s ==>
      Overwritten(s, r.store, ms[r.written], steps[r.written].other)
    ensures r.failed && steps[r.written].LostAfterWrite? && ms[r.written] in s ==>
      Appended(s, r.store, ms[r.written], suffixes[r.written])
    ensures r.failed && !steps[r.written].Raced? && !(steps[r.written].LostAfterWrite? && ms[r.written] in s) ==>
      Same(s, r.store, ms[r.written])
    ensures forall i :: r.written < i < |ms| ==> Same(s, r.store, ms[i])
    ensures forall p :: p !in ms ==> Same(s, r.store, p)
  {
    AppendFrom(s, ms, suffixes, steps, 0)
  }

  /** The member loop from member k on; `written` counts from the start of the member list. */
  function AppendFrom(s: Store, ms: seq<MemberId>, suffixes: seq<seq<Byte>>, steps: seq<ZkStep>, k: nat): (r: Run)
    requires Distinct(ms) && |suffixes| == |ms| && |steps| == |ms| && k <= |ms|
    ensures k <= r.written <= |ms| && (r.failed <==> r.written < |ms|)
    ensures r.store.Keys == s.Keys
    ensures forall i :: k <= i < r.written ==> steps[i].Quiet? && Appended(s, r.store, ms[i], suffixes[i])
    ensures r.failed ==> !(steps[r.written].Quiet? && ms[r.written] in s)
    ensures r.failed && steps[r.written].Raced? && ms[r.written] in s ==>
      Overwritten(s, r.store, ms[r.written], steps[r.written].other)
    ensures r.failed && steps[r.written].LostAfterWrite? && ms[r.written] in s ==>
      Appended(s, r.store, ms[r.written], suffixes[r.written])
    ensures r.failed && !steps[r.written].Raced? && !(steps[r.written].LostAfterWrite? && ms[r.written] in s) ==>
      Same(s, r.store, ms[r.written])
    ensures forall i :: r.written < i < |ms| ==> Same(s, r.store, ms[i])
    ensures forall i :: 0 <= i < k ==> Same(s, r.store, ms[i])
    ensures forall p :: p !in ms ==> Same(s, r.store, p)
    decreases |ms| - k
  {
    if k == |ms| then Run(s, k, false)
    else
      var (s1, ok) := AppendWithVersion(s, ms[k], suffixes[k], steps[k]);
      if !ok then Run(s1, k, true)
      else
        var rest := AppendFrom(s1, ms, suffixes, steps, k + 1);
        assert forall i :: 0 <= i < |ms| && i != k ==> Same(s, s1, ms[i]);
        Run(rest.store, rest.written, rest.failed)
  }

  /** The member loop gets through every member exactly when every write is quiet and every node exists. */
  lemma RunCompletes(s: Store, ms: seq<MemberId>, suffixes: seq<seq<Byte>>, steps: seq<ZkStep>)
    requires Distinct(ms) && |suffixes| == |ms| && |steps| == |ms|
    ensures !AppendAll(s, ms, suffixes, steps).failed <==> forall i :: 0 <= i < |ms| ==> steps[i].Quiet? && ms[i] in s
  {
    var run := AppendAll(s, ms, suffixes, steps);
    if !run.failed {
      assert forall i :: 0 <= i < |ms| ==> Appended(s, run.store, ms[i], suffixes[i]);
    }
  }

  /**
   * `Env.commitLedger`: closes the ledger, then appends `be64(ledger) ++ be64(times[i])` to
   * member i's log list with a version-conditioned write. Any failure attempts to delete the
   * ledger (swallowing that failure) and raises CommitFailure carrying the ledger id; members
   * already updated stay updated.
   */
  function CommitLedger(e: Env, ledger: LedgerId, closeOk: bool, steps: seq<ZkStep>, times: seq<Int64>, deleteOk: bool): (r: Step<()>)
    requires |steps| == |e.members| && |times| == |e.members|
    ensures !e.leader ==> r == Step(e, Failure(NotLeader))
    ensures r.result.Success? <==>
      e.leader && closeOk && ledger in e.ledgers &&
      forall i :: 0 <= i < |e.members| ==> steps[i].Quiet? && e.members[i] in e.logLists
    ensures e.leader && r.result.Failure? ==> r.result.error == CommitFailure(ledger)
    ensures r.env.leader == e.leader && r.env.members == e.members && r.env.paths == e.paths
    ensures r.env.logLists.Keys == e.logLists.Keys
    ensures r.result.Success? ==> r.env.ledgers.Keys == e.ledgers.Keys
    ensures r.result.Success? ==> r.env.ledgers[ledger].closed && r.env.ledgers[ledger].entries == e.ledgers[ledger].entries
    ensures r.result.Success? ==> r.env.ledgers[ledger] == e.ledgers[ledger].(closed := true)
    ensures r.result.Success? ==> forall i :: 0 <= i < |e.members| ==>
      Appended(e.logLists, r.env.logLists, e.members[i], EntryBytes(ledger, times[i]))
    ensures e.leader && r.result.Failure? ==>
      r.env.ledgers.Keys == if deleteOk then e.ledgers.Keys - {ledger} else e.ledgers.Keys
    ensures forall other :: other in r.env.ledgers && other != ledger ==> r.env.ledgers[other] == e.ledgers[other]
    ensures forall p :: p !in e.members ==> Same(e.logLists, r.env.logLists, p)
  {
    if !e.leader then Step(e, Failure(NotLeader))
    else match Close(e.ledgers, ledger, closeOk)
      case None =>
        Step(e.(ledgers := DeleteQuietly(e.ledgers, ledger, deleteOk)), Failure(CommitFailure(ledger)))
      case Some(closed) =>
        var suffixes := Suffixes(ledger, times);
        var run := AppendAll(e.logLists, e.members, suffixes, steps);
        RunCompletes(e.logLists, e.members, suffixes, steps);
        if run.failed then
          Step(e.(ledgers := DeleteQuietly(closed, ledger, deleteOk), logLists := run.store), Failure(CommitFailure(ledger)))
        else
          Step(e.(ledgers := closed, logLists := run.store), Success(()))
  }

  /**
   * A failed commit has no rollback: the members that were updated are a prefix of the
   * member order, every other member's list is untouched unless another client raced on it
   * (and then holds that client's write, one version on), and past the one member where the loop stopped, nothing at all changed.
   */
  lemma CommitFailureLeavesPrefix(e: Env, ledger: LedgerId, closeOk: bool, steps: seq<ZkStep>, times: seq<Int64>, deleteOk: bool)
    requires |steps| == |e.members| && |times| == |e.members|
    requires e.leader && CommitLedger(e, ledger, closeOk, steps, times, deleteOk).result.Failure?
    ensures var after := CommitLedger(e, ledger, closeOk, steps, times, deleteOk).env.logLists;
      forall i, j :: 0 <= i < j < |e.members| && Appended(e.logLists, after, e.members[j], EntryBytes(ledger, times[j])) ==>
        Appended(e.logLists, after, e.members[i], EntryBytes(ledger, times[i]))
    ensures var after := CommitLedger(e, ledger, closeOk, steps, times, deleteOk).env.logLists;
      forall i :: 0 <= i < |e.members| ==>
        Appended(e.logLists, after, e.members[i], EntryBytes(ledger, times[i])) ||
        Same(e.logLists, after, e.members[i]) ||
        (steps[i].Raced? && Overwritten(e.logLists, after, e.members[i], steps[i].other))
    ensures var after := CommitLedger(e, ledger, closeOk, steps, times, deleteOk).env.logLists;
      exists w :: SplitAt(e.logLists, after, e.members, Suffixes(ledger, times), w)
  {
    var after := CommitLedger(e, ledger, closeOk, steps, times, deleteOk).env.logLists;
    var suffixes := Suffixes(ledger, times);
    CommitLogLists(e, ledger, closeOk, steps, times, deleteOk);
    if closeOk && ledger in e.ledgers {
      RunSplit(e.logLists, e.members, suffixes, steps);
    } else {
      assert SplitAt(e.logLists, after, e.members, suffixes, 0);
    }
  }

  /**
   * When the connection drops after member w's write reached the coordination service, the
   * commit raises CommitFailure and deletes the ledger, yet member w's log list already names it.
   */
  lemma LostWriteLeavesDanglingEntry(e: Env, ledger: LedgerId, steps: seq<ZkStep>, times: seq<Int64>, w: nat)
    requires |steps| == |e.members| && |times| == |e.members|
    requires e.leader && ledger in e.ledgers
    requires w < |e.members| && steps[w].LostAfterWrite? && e.members[w] in e.logLists
    requires forall i :: 0 <= i < w ==> steps[i].Quiet? && e.members[i] in e.logLists
    ensures var r := CommitLedger(e, ledger, true, steps, times, true);
      && r.result == Failure(CommitFailure(ledger))
      && ledger !in r.env.ledgers
      && Appended(e.logLists, r.env.logLists, e.members[w], EntryBytes(ledger, times[w]))
  {
    var suffixes := Suffixes(ledger, times);
    var run := AppendAll(e.logLists, e.members, suffixes, steps);
    assert run.written == w;
    CommitLogLists(e, ledger, true, steps, times, true);
  }

  /** On a leader, the log lists after a commit are those the member loop leaves, or untouched when the close fails. */
  lemma CommitLogLists(e: Env, ledger: LedgerId, closeOk: bool, steps: seq<ZkStep>, times: seq<Int64>, deleteOk: bool)
    requires |steps| == |e.members| && |times| == |e.members| && e.leader
    ensures CommitLedger(e, ledger, closeOk, steps, times, deleteOk).env.logLists ==
      if closeOk && ledger in e.ledgers then AppendAll(e.logLists, e.members, Suffixes(ledger, times), steps).store else e.logLists
  {
    var c := CommitLedger(e, ledger, closeOk, steps, times, deleteOk);
    if closeOk && ledger in e.ledgers {
      var closed := Close(e.ledgers, ledger, closeOk);
      assert closed.Some?;
      var run := AppendAll(e.logLists, e.members, Suffixes(ledger, times), steps);
      assert c.env.logLists == run.store;
    } else {
      assert Close(e.ledgers, ledger, closeOk).None?;
    }
  }

  /** Where the member loop stops, it splits the members into an appended prefix and an untouched rest. */
  lemma RunSplit(s: Store, ms: seq<MemberId>, suffixes: seq<seq<Byte>>, steps: seq<ZkStep>)
    requires Distinct(ms) && |suffixes| == |ms| && |steps| == |ms|
    ensures var run := AppendAll(s, ms, suffixes, steps);
      && SplitAt(s, run.store, ms, suffixes, run.written)
      && (forall i, j :: 0 <= i < j < |ms| && Appended(s, run.store, ms[j], suffixes[j]) ==> Appended(s, run.store, ms[i], suffixes[i]))
      && (forall i :: 0 <= i < |ms| ==>
            || Appended(s, run.store, ms[i], suffixes[i])
            || Same(s, run.store, ms[i])
            || (steps[i].Raced? && Overwritten(s, run.store, ms[i], steps[i].other)))
  {
  }

  /** The members before `w` have their suffix appended; those after `w` are untouched. */
  predicate SplitAt(before: Store, after: Store, ms: seq<MemberId>, suffixes: seq<seq<Byte>>, w: int)
    requires |suffixes| == |ms|
  {
    && 0 <= w <= |ms|
    && (forall i :: 0 <= i < w ==> Appended(before, after, ms[i], suffixes[i]))
    && (forall i :: w < i < |ms| ==> Same(before, after, ms[i]))
  }

  /**
   * After a successful commit every member's log list reads as its old entries followed by
   * exactly one new entry naming the ledger and that member's commit time.
   */
  lemma CommitPublishes(e: Env, ledger: LedgerId, closeOk: bool, steps: seq<ZkStep>, times: seq<Int64>, deleteOk: bool)
    requires |steps| == |e.members| && |times| == |e.members|
    requires CommitLedger(e, ledger, closeOk, steps, times, deleteOk).result.Success?
    requires forall i :: 0 <= i < |e.members| && e.members[i] in e.logLists ==> |e.logLists[e.members[i]].data| % 16 == 0
    ensures var after := CommitLedger(e, ledger, closeOk, steps, times, deleteOk).env.logLists;
      forall i :: 0 <= i < |e.members| ==>
        && e.members[i] in after
        && |after[e.members[i]].data| == |e.logLists[e.members[i]].data| + 16
        && Entries(after[e.members[i]].data) == Entries(e.logLists[e.members[i]].data) + [Entry(ledger, times[i])]
  {
    var after := CommitLedger(e, ledger, closeOk, steps, times, deleteOk).env.logLists;
    forall i | 0 <= i < |e.members|
      ensures Entries(after[e.members[i]].data) == Entries(e.logLists[e.members[i]].data) + [Entry(ledger, times[i])]
    {
      EntriesAppend(e.logLists[e.members[i]].data, ledger, times[i]);
    }
  }

  // ---------------------------------------------------------------------------
  // abortLedger

  /** `Env.abortLedger`: close then delete, each failure swallowed; only the leader guard raises. */
  function AbortLedger(e: Env, ledger: LedgerId, closeOk: bool, deleteOk: bool): (r: Step<()>)
    ensures r.result.Success? <==> e.leader
    ensures r.result.Failure? ==> r == Step(e, Failure(NotLeader))
    ensures r.env.logLists == e.logLists && r.env.paths == e.paths
    ensures r.env.leader == e.leader && r.env.members == e.members
    ensures e.leader ==> r.env.ledgers.Keys == if deleteOk then e.ledgers.Keys - {ledger} else e.ledgers.Keys
    ensures forall other :: other in r.env.ledgers && other != ledger ==> r.env.ledgers[other] == e.ledgers[other]
    ensures e.leader && ledger in r.env.ledgers ==>
      r.env.ledgers[ledger].entries == e.ledgers[ledger].entries && (closeOk ==> r.env.ledgers[ledger].closed)
    ensures e.leader && ledger in r.env.ledgers ==>
      r.env.ledgers[ledger] == e.ledgers[ledger].(closed := closeOk || e.ledgers[ledger].closed)
  {
    if !e.leader then Step(e, Failure(NotLeader))
    else
      var closed := CloseQuietly(e.ledgers, ledger, closeOk);
      Step(e.(ledgers := DeleteQuietly(closed, ledger, deleteOk)), Success(()))
  }

  // ---------------------------------------------------------------------------
  // keyspace markers

  /**
   * The marker creation of `openDatabase` (`createZKPath`): create the node, swallowing both an
   * existing node and a missing parent, then reset its data conditioned on version 0. A fresh node
   * has version 0 and the reset moves it to 1; since every marker is made this way, an existing
   * marker has already been reset once and the conditioned reset fails on it. The reset also fails
   * when the keyspace map node is missing, or when `ok` says the coordination call failed.
   */
  function CreateMarker(e: Env, id: Fingerprint, ok: bool): (r: Result<Env, Error>)
    ensures r.Success? <==> ok && DbNameMapPath in e.paths && MarkerPath(id) !in e.paths
    ensures r.Failure? ==> r.error == CoordinationFailure
    ensures r.Success? ==> r.value.paths == e.paths + {MarkerPath(id)}
    ensures r.Success? ==> r.value.(paths := e.paths) == e
  {
    if ok && DbNameMapPath in e.paths && MarkerPath(id) !in e.paths then
      Success(e.(paths := e.paths + {MarkerPath(id)}))
    else Failure(CoordinationFailure)
  }

  /**
   * Corrected marker creation: the reset is unconditional, so creating a marker that already
   * exists succeeds and leaves the paths as they were.
   */
  function EnsureMarker(e: Env, id: Fingerprint, ok: bool): (r: Result<Env, Error>)
    ensures r.Success? <==> ok && DbNameMapPath in e.paths
    ensures r.Failure? ==> r.error == CoordinationFailure
    ensures r.Success? ==> r.value.paths == e.paths + {MarkerPath(id)}
    ensures r.Success? ==> r.value.(paths := e.paths) == e
    ensures r.Success? && MarkerPath(id) in e.paths ==> r.value == e
  {
    if ok && DbNameMapPath in e.paths then Success(e.(paths := e.paths + {MarkerPath(id)}))
    else Failure(CoordinationFailure)
  }

  /** `Env.dropDatabase`: delete the marker node of the fingerprint; any failure is raised. */
  function DropDatabase(e: Env, id: Fingerprint, ok: bool): (r: Result<Env, Error>)
    ensures r.Success? <==> ok && MarkerPath(id) in e.paths
    ensures r.Failure? ==> r.error == CoordinationFailure
    ensures r.Success? ==> r.value.paths == e.paths - {MarkerPath(id)}
    ensures r.Success? ==> r.value.(paths := e.paths) == e
  {
    if ok && MarkerPath(id) in e.paths then Success(e.(paths := e.paths - {MarkerPath(id)}))
    else Failure(CoordinationFailure)
  }
}

=== FILE: ledgerservice.dfy ===
/**
 * The ledger service (BookKeeper) as abstract state: each ledger is an append-only
 * sequence of entries plus the replication widths it was created with and whether it
 * has been closed. Replication, digests and durability are not modelled; every call
 * that can fail takes its outcome as a parameter.
 */
module LedgerService {
  import opened Wrappers
  import opened Bytes
  import opened LongCodec

  type LedgerId = Int64

  datatype Ledger = Ledger(ensemble: int, writeQuorum: int, ackQuorum: int, entries: seq<seq<Byte>>, closed: bool)

  type Ledgers = map<LedgerId, Ledger>

  /** What the service answers to one `createLedger` request. */
  datatype CreateReply = Granted(id: LedgerId) | NotEnoughBookies | OtherFailure

  /** A freshly created ledger: open and empty. */
  function NewLedger(ensemble: int, quorum: int): (l: Ledger)
    ensures l.entries == [] && !l.closed
    ensures l.ensemble == ensemble && l.writeQuorum == quorum && l.ackQuorum == quorum
  {
    Ledger(ensemble, quorum, quorum, [], false)
  }

  /**
   * `LedgerHandle.addEntry`: appends `data` to an open ledger; fails (and changes nothing)
   * when the ledger is gone or closed, or when `ok` says the quorum did not acknowledge.
   */
  function AddEntry(ls: Ledgers, id: LedgerId, data: seq<Byte>, ok: bool): (r: Option<Ledgers>)
    ensures r.Some? <==> ok && id in ls && !ls[id].closed
    ensures r.Some? ==> r.value.Keys == ls.Keys
    ensures r.Some? ==> r.value[id].entries == ls[id].entries + [data] && !r.value[id].closed
    ensures r.Some? ==>
      && r.value[id].ensemble == ls[id].ensemble
      && r.value[id].writeQuorum == ls[id].writeQuorum
      && r.value[id].ackQuorum == ls[id].ackQuorum
    ensures r.Some? ==> forall other :: other in ls && other != id ==> r.value[other] == ls[other]
  {
    if ok && id in ls && !ls[id].closed then
      Some(ls[id := ls[id].(entries := ls[id].entries + [data])])
    else None
  }

  /** `LedgerHandle.close`: seals the ledger, keeping its entries. */
  function Close(ls: Ledgers, id: LedgerId, ok: bool): (r: Option<Ledgers>)
    ensures r.Some? <==> ok && id in ls
    ensures r.Some? ==> r.value.Keys == ls.Keys && r.value[id].closed && r.value[id].entries == ls[id].entries
    ensures r.Some? ==> r.value[id] == ls[id].(closed := true)
    ensures r.Some? ==> forall other :: other in ls && other != id ==> r.value[other] == ls[other]
  {
    if ok && id in ls then Some(ls[id := ls[id].(closed := true)]) else None
  }

  /** `BookKeeper.deleteLedger`: removes the ledger. */
  function Delete(ls: Ledgers, id: LedgerId, ok: bool): (r: Option<Ledgers>)
    ensures r.Some? <==> ok && id in ls
    ensures r.Some? ==> r.value.Keys == ls.Keys - {id}
    ensures r.Some? ==> forall other :: other in r.value ==> r.value[other] == ls[other]
  {
    if ok && id in ls then Some(ls - {id}) else None
  }

  /** A close whose failure is swallowed. */
  function CloseQuietly(ls: Ledgers, id: LedgerId, ok: bool): (r: Ledgers)
    ensures r.Keys == ls.Keys
    ensures forall other :: other in ls && other != id ==> r[other] == ls[other]
    ensures id in ls ==> r[id].entries == ls[id].entries && (r[id].closed <==> ok || ls[id].closed)
    ensures id in ls ==> r[id] == ls[id].(closed := ok || ls[id].closed)
  {
    match Close(ls, id, ok)
    case Some(closed) => closed
    case None => ls
  }

  /** A delete whose failure is swallowed. */
  function DeleteQuietly(ls: Ledgers, id: LedgerId, ok: bool): (r: Ledgers)
    ensures r.Keys == if ok then ls.Keys - {id} else ls.Keys
    ensures forall other :: other in r ==> r[other] == ls[other]
  {
    match Delete(ls, id, ok)
    case Some(rest) => rest
    case None => ls
  }
}

=== FILE: loglist.dfy ===
/**
 * The layout of a member's log list: a packed sequence of 16-byte entries, each an
 * 8-byte ledger id followed by an 8-byte commit timestamp, both big-endian. Position in
 * the list, not the numeric id, is the replay order.
 */
module LogList {
  import opened Bytes
  import opened LongCodec

  datatype Entry = Entry(ledger: Int64, timestamp: Int64)

  /** The 16 bytes a commit appends for one member: `be64(ledger) ++ be64(timestamp)`. */
  function EntryBytes(ledger: Int64, timestamp: Int64): (r: seq<Byte>)
    ensures |r| == 16
    ensures ByteArrayToLong(r, 0) == ledger && ByteArrayToLong(r, 8) == timestamp
  {
    var r := LongToByteArray(ledger) + LongToByteArray(timestamp);
    LongToByteArrayInjective(ByteArrayToLong(r, 0), ledger);
    LongToByteArrayInjective(ByteArrayToLong(r, 8), timestamp);
    r
  }

  /** The entries a reader finds in a log list, in list order; a trailing partial entry is ignored. */
  function Entries(data: seq<Byte>): (es: seq<Entry>)
    ensures |es| == |data| / 16
    decreases |data|
  {
    if |data| < 16 then []
    else [Entry(ByteArrayToLong(data, 0), ByteArrayToLong(data, 8))] + Entries(data[16..])
  }

  /** Appending the 16 bytes of an entry to a well-formed list appends exactly that entry. */
  lemma {:induction false} EntriesAppend(prefix: seq<Byte>, ledger: Int64, timestamp: Int64)
    requires |prefix| % 16 == 0
    ensures Entries(prefix + EntryBytes(ledger, timestamp)) == Entries(prefix) + [Entry(ledger, timestamp)]
  {
    var tail := EntryBytes(ledger, timestamp);
    var all := prefix + tail;
    if |prefix| == 0 {
      assert all == tail;
      assert tail[16..] == [];
    } else {
      WholeEntries(|prefix|);
      var rest := prefix[16..];
      assert all[16..] == rest + tail by { DropAppend(prefix, tail, 16); }
      EntriesAppend(rest, ledger, timestamp);
      SliceAppend(prefix, tail, 0, 8);
      SliceAppend(prefix, tail, 8, 16);
      ByteArrayToLongWindow(all, 0, prefix, 0);
      ByteArrayToLongWindow(all, 8, prefix, 8);
      assert Entries(prefix) == [Entry(ByteArrayToLong(prefix, 0), ByteArrayToLong(prefix, 8))] + Entries(rest);
    }
  }

  /** A non-empty whole number of entries holds a first entry and a whole number after it. */
  lemma WholeEntries(n: nat)
    requires n > 0 && n % 16 == 0
    ensures n >= 16 && (n - 16) % 16 == 0
  {
    var q := n / 16;
    assert n == 16 * q;
    DivModUnique(n - 16, 16, q - 1, 0);
  }

  lemma SliceAppend<T>(a: seq<T>, b: seq<T>, i: nat, j: nat)
    requires i <= j <= |a|
    ensures (a + b)[i..j] == a[i..j]
  {
  }

  lemma DropAppend<T>(a: seq<T>, b: seq<T>, k: nat)
    requires k <= |a|
    ensures (a + b)[k..] == a[k..] + b
  {
  }
}

=== FILE: longcodec.dfy ===
/**
 * The fixed-width integer codec of `Env`: a Java `long` travels as 8 bytes, most
 * significant first. Every log-list entry and every replay cursor uses it.
 */
module LongCodec {
  import opened Bytes

  const TwoTo63: int := 0x8000_0000_0000_0000
  const TwoTo64: int := 0x1_0000_0000_0000_0000

  /** A Java `long`. */
  type Int64 = x: int | -TwoTo63 <= x < TwoTo63

  /** Largest `long` (`Long.MAX_VALUE`). */
  const MaxInt64: Int64 := 0x7fff_ffff_ffff_ffff

  /** The 64-bit two's-complement pattern of `l`, read as an unsigned number. */
  function ToUnsigned(l: Int64): (u: nat)
    ensures u < TwoTo64
    ensures (u - l) % TwoTo64 == 0
  {
    if l < 0 then l + TwoTo64 else l
  }

  /** The `long` whose two's-complement pattern is `u`. */
  function ToSigned(u: nat): (l: Int64)
    requires u < TwoTo64
    ensures ToUnsigned(l) == u
  {
    if u >= TwoTo63 then u - TwoTo64 else u
  }

  /** `Env.longToByteArray`: the 8 bytes of `l`, most significant first. */
  function LongToByteArray(l: Int64): (r: seq<Byte>)
    ensures |r| == 8
  {
    assert Pow256(8) == TwoTo64;
    BeEncode(ToUnsigned(l), 8)
  }

  /**
   * `Env.byteArrayToLong(array, offset)`: the `long` held in `a[off..off+8]`.
   * Java raises an index error when the window does not fit; callers must provide it.
   * The result is the one `long` whose encoding is exactly that window.
   */
  function ByteArrayToLong(a: seq<Byte>, off: int): (r: Int64)
    requires 0 <= off && off + 8 <= |a|
    ensures LongToByteArray(r) == a[off..off + 8]
  {
    var w := a[off..off + 8];
    assert Pow256(8) == TwoTo64;
    EncodeOfDecode(w);
    ToSigned(BeDecode(w))
  }

  /** Decoding undoes encoding for every `long`. */
  lemma LongRoundTrip(l: Int64)
    ensures ByteArrayToLong(LongToByteArray(l), 0) == l
  {
    assert Pow256(8) == TwoTo64;
    var b := LongToByteArray(l);
    assert b[0..8] == b;
  }

  /** Encoding undoes decoding for every 8-byte string. */
  lemma BytesRoundTrip(b: seq<Byte>)
    requires |b| == 8
    ensures LongToByteArray(ByteArrayToLong(b, 0)) == b
  {
    assert b[0..8] == b;
  }

  /** Distinct `long`s have distinct encodings. */
  lemma LongToByteArrayInjective(x: Int64, y: Int64)
    ensures LongToByteArray(x) == LongToByteArray(y) ==> x == y
  {
    if LongToByteArray(x) == LongToByteArray(y) {
      LongRoundTrip(x);
      LongRoundTrip(y);
    }
  }

  /** The decoder looks at nothing outside the 8-byte window. */
  lemma ByteArrayToLongWindow(a: seq<Byte>, off: int, b: seq<Byte>, off2: int)
    requires 0 <= off && off + 8 <= |a|
    requires 0 <= off2 && off2 + 8 <= |b|
    ensures ByteArrayToLong(a, off) == ByteArrayToLong(b, off2) <==> a[off..off + 8] == b[off2..off2 + 8]
  {
    LongToByteArrayInjective(ByteArrayToLong(a, off), ByteArrayToLong(b, off2));
  }

  lemma {:induction false} PowAdd(x: nat, y: nat)
    ensures Pow256(x + y) == Pow256(x) * Pow256(y)
  {
    if x > 0 {
      PowAdd(x - 1, y);
    }
  }

  /** Adding a multiple of the divisor adds to the quotient. */
  lemma DivShift(a: int, p: int, k: int)
    requires p > 0
    ensures (a + p * k) / p == a / p + k
  {
    var q, r := a / p, a % p;
    assert a + p * k == p * (q + k) + r;
    DivModUnique(a + p * k, p, q + k, r);
  }

  /**
   * Byte i of `longToByteArray(l)` is `(byte)(0xff & (l >> (56 - 8*i)))` as the Java code computes it:
   * an arithmetic right shift of the signed value is floor division by a power of two,
   * and masking with `0xff` is the non-negative remainder modulo 256.
   */
  lemma LongToByteArrayShifts(l: Int64, i: nat)
    requires i < 8
    ensures LongToByteArray(l)[i] == (l / Pow256(7 - i)) % 256
  {
    assert Pow256(8) == TwoTo64;
    var u := ToUnsigned(l);
    EncodeDigit(u, 8, i);
    if l < 0 {
      var p := Pow256(7 - i);
      var k := Pow256(i);
      assert u == l + p * (256 * k) by {
        PowAdd(7 - i, i + 1);
        assert Pow256(i + 1) == 256 * k;
      }
      WrapKeepsByte(l, p, k);
    }
  }

  /** Adding a multiple of 256 * p before dividing by p leaves the low byte of the quotient alone. */
  lemma WrapKeepsByte(a: int, p: int, k: int)
    requires p > 0
    ensures ((a + p * (256 * k)) / p) % 256 == (a / p) % 256
  {
    DivShift(a, p, 256 * k);
    DivModUnique(a / p + 256 * k, 256, (a / p) / 256 + k, (a / p) % 256);
  }

  /**
   * `byteArrayToLong` ORs the eight bytes shifted into disjoint bit ranges, which is their
   * weighted sum; the `long` result is that 64-bit pattern read as two's complement.
   */
  lemma ByteArrayToLongShifts(a: seq<Byte>, off: int)
    requires 0 <= off && off + 8 <= |a|
    ensures ToUnsigned(ByteArrayToLong(a, off)) ==
      (a[off] as int) * 0x100_0000_0000_0000 + (a[off + 1] as int) * 0x1_0000_0000_0000 +
      (a[off + 2] as int) * 0x100_0000_0000 + (a[off + 3] as int) * 0x1_0000_0000 +
      (a[off + 4] as int) * 0x100_0000 + (a[off + 5] as int) * 0x1_0000 +
      (a[off + 6] as int) * 0x100 + a[off + 7]
  {
    var w := a[off..off + 8];
    var b0: int, b1: int, b2: int, b3: int := w[0], w[1], w[2], w[3];
    var b4: int, b5: int, b6: int := w[4], w[5], w[6];
    assert w[..1][..0] == [];
    assert BeDecode(w[..1]) == b0;
    assert w[..2][..1] == w[..1];
    assert BeDecode(w[..2]) == b0 * 0x100 + b1;
    assert w[..3][..2] == w[..2];
    assert BeDecode(w[..3]) == b0 * 0x1_0000 + b1 * 0x100 + b2;
    assert w[..4][..3] == w[..3];
    assert BeDecode(w[..4]) == b0 * 0x100_0000 + b1 * 0x1_0000 + b2 * 0x100 + b3;
    assert w[..5][..4] == w[..4];
    assert BeDecode(w[..5]) == b0 * 0x1_0000_0000 + b1 * 0x100_0000 + b2 * 0x1_0000 + b3 * 0x100 + b4;
    assert w[..6][..5] == w[..5];
    assert BeDecode(w[..6]) == b0 * 0x100_0000_0000 + b1 * 0x1_0000_0000 + b2 * 0x100_0000
      + b3 * 0x1_0000 + b4 * 0x100 + b5;
    assert w[..7][..6] == w[..6];
    assert BeDecode(w[..7]) == b0 * 0x1_0000_0000_0000 + b1 * 0x100_0000_0000 + b2 * 0x1_0000_0000
      + b3 * 0x100_0000 + b4 * 0x1_0000 + b5 * 0x100 + b6;
    assert w[..8][..7] == w[..7];
    assert w[..8] == w;
  }

  /** The first byte carries the most significant bits: big-endian order. */
  lemma MostSignificantFirst(l: Int64)
    ensures LongToByteArray(l)[0] == ToUnsigned(l) / 0x100_0000_0000_0000
    ensures LongToByteArray(l)[7] == ToUnsigned(l) % 256
  {
    assert Pow256(8) == TwoTo64;
    EncodeDigit(ToUnsigned(l), 8, 0);
    EncodeDigit(ToUnsigned(l), 8, 7);
  }
}

=== FILE: oprecord.dfy ===
/**
 * The operation record a keyspace writes as one ledger entry:
 * `keyspaceId(4) ++ opcode(1) ++ keyLength(1) ++ key ++ value`, the value present only for a put.
 */
module OpRecord {
  import opened Wrappers
  import opened Bytes

  /** The 4-byte keyspace fingerprint (CRC-32C of the keyspace name). */
  type Fingerprint = s: seq<Byte> | |s| == 4 witness [0, 0, 0, 0]

  const OpDelete: Byte := 0x00
  const OpPut: Byte := 0x01

  /** A decoded operation. */
  datatype Op =
    | Put(keyspace: Fingerprint, key: seq<Byte>, value: seq<Byte>)
    | Delete(keyspace: Fingerprint, key: seq<Byte>)

  /** Why a corrected encoder refuses an operation. */
  datatype RecordError = KeyTooLong

  /** The fixed prefix `OPERATION_PUT` a keyspace computes once. */
  function PutPrefix(id: Fingerprint): (r: seq<Byte>)
    ensures |r| == 5 && r[..4] == id && r[4] == OpPut
  {
    id + [OpPut]
  }

  /** The fixed prefix `OPERATION_DEL` a keyspace computes once. */
  function DeletePrefix(id: Fingerprint): (r: seq<Byte>)
    ensures |r| == 5 && r[..4] == id && r[4] == OpDelete
  {
    id + [OpDelete]
  }

  /** The Java cast `(byte)key.length`: only the low 8 bits of the length survive. */
  function LengthByte(key: seq<Byte>): (r: Byte)
    ensures |key| <= 255 ==> r == |key|
    ensures (|key| - r) % 256 == 0
  {
    |key| % 256
  }

  /** The record `put(tx, key, value)` appends, exactly as written: no check on the key length. */
  function PutRecord(id: Fingerprint, key: seq<Byte>, value: seq<Byte>): (r: seq<Byte>)
    ensures |r| == 6 + |key| + |value|
    ensures r[..5] == PutPrefix(id) && r[5] == LengthByte(key)
    ensures r[6..6 + |key|] == key && r[6 + |key|..] == value
  {
    PutPrefix(id) + [LengthByte(key)] + key + value
  }

  /** The record `delete(tx, key)` appends, exactly as written: no value bytes. */
  function DeleteRecord(id: Fingerprint, key: seq<Byte>): (r: seq<Byte>)
    ensures |r| == 6 + |key|
    ensures r[..5] == DeletePrefix(id) && r[5] == LengthByte(key)
    ensures r[6..] == key
  {
    DeletePrefix(id) + [LengthByte(key)] + key
  }

  function Encode(op: Op): seq<Byte> {
    match op
    case Put(id, key, value) => PutRecord(id, key, value)
    case Delete(id, key) => DeleteRecord(id, key)
  }

  /**
   * How a replaying member reads a record back: the key length comes from byte 5,
   * a put takes every remaining byte as its value, a delete must end after its key.
   */
  function Decode(r: seq<Byte>): (op: Option<Op>)
    ensures op.Some? ==> |r| >= 6 && r[..4] == op.value.keyspace && r[5] == |op.value.key|
  {
    if |r| < 6 then None
    else
      var k: int := r[5];
      if |r| < 6 + k then None
      else if r[4] == OpPut then Some(Put(r[..4], r[6..6 + k], r[6 + k..]))
      else if r[4] == OpDelete && |r| == 6 + k then Some(Delete(r[..4], r[6..6 + k]))
      else None
  }

  /** Keys of at most 255 bytes decode back to the operation that produced them. */
  lemma DecodeEncode(op: Op)
    requires |op.key| <= 255
    ensures Decode(Encode(op)) == Some(op)
  {
    var r := Encode(op);
    assert r[..4] == op.keyspace;
    assert r[5] == |op.key|;
    match op
    case Put(_, key, value) =>
      assert r[6..6 + |key|] == key;
    case Delete(_, key) =>
      assert r[6..6 + |key|] == key;
  }

  /** Whatever decodes re-encodes to the same bytes: the decoder loses nothing. */
  lemma EncodeDecode(r: seq<Byte>)
    ensures Decode(r).Some? ==> Encode(Decode(r).value) == r
  {
    if Decode(r).Some? {
      var k: int := r[5];
      assert r == r[..4] + [r[4]] + [r[5]] + r[6..6 + k] + r[6 + k..];
    }
  }

  /** For keys of at most 255 bytes, keyspace, opcode, key and value are all recoverable: the encoding is injective. */
  lemma EncodeInjective(a: Op, b: Op)
    requires |a.key| <= 255 && |b.key| <= 255
    ensures Encode(a) == Encode(b) <==> a == b
  {
    if Encode(a) == Encode(b) {
      DecodeEncode(a);
      DecodeEncode(b);
    }
  }

  /** A put and a delete never produce the same record, whatever the key lengths. */
  lemma PutDeleteDisjoint(id: Fingerprint, key: seq<Byte>, value: seq<Byte>, id2: Fingerprint, key2: seq<Byte>)
    ensures PutRecord(id, key, value) != DeleteRecord(id2, key2)
  {
    assert PutRecord(id, key, value)[4] != DeleteRecord(id2, key2)[4];
  }

  /** A 256-byte key of zeros. */
  function ZeroKey256(): (k: seq<Byte>)
    ensures |k| == 256 && LengthByte(k) == 0
  {
    seq(256, _ => 0)
  }

  /**
   * As written, a 256-byte key wraps its length byte to 0: the put of that key with an
   * empty value and the put of an empty key whose value is those 256 bytes are the same record,
   * and the record decodes as the second.
   */
  lemma LongKeyCollision(id: Fingerprint)
    ensures Put(id, ZeroKey256(), []) != Put(id, [], ZeroKey256())
    ensures PutRecord(id, ZeroKey256(), []) == PutRecord(id, [], ZeroKey256())
    ensures Decode(PutRecord(id, ZeroKey256(), [])) == Some(Put(id, [], ZeroKey256()))
  {
    var k := ZeroKey256();
    var r := PutRecord(id, k, []);
    assert r == PutRecord(id, [], k);
    assert r[..4] == id;
    assert r[6..6 + 0] == [];
    assert r[6..] == k;
  }

  /** The corrected encoder: keys longer than 255 bytes are refused before anything is written. */
  function CheckedEncode(op: Op): (r: Result<seq<Byte>, RecordError>)
    ensures r.Success? <==> |op.key| <= 255
    ensures r.Success? ==> Decode(r.value) == Some(op)
  {
    if |op.key| > 255 then Failure(KeyTooLong)
    else
      DecodeEncode(op);
      Success(Encode(op))
  }

  /** The corrected encoder is injective on every input it accepts. */
  lemma CheckedEncodeInjective(a: Op, b: Op)
    ensures CheckedEncode(a).Success? && CheckedEncode(a) == CheckedEncode(b) ==> a == b
  {
  }
}

=== FILE: replay.dfy ===
/**
 * The index arithmetic of the dormant replay loop in `Env.stupidTest`: where a follower
 * resumes in the ledger list (first occurrence of its cursor bytes, plus 8), the offsets it
 * then visits (steps of 8), and the leader's minimum over the members' cursors.
 */
module Replay {
  import opened Wrappers
  import opened Bytes
  import opened LongCodec

  /** `t` occurs in `a` starting at position k. */
  predicate OccursAt(a: seq<Byte>, t: seq<Byte>, k: int) {
    0 <= k && k + |t| <= |a| && a[k..k + |t|] == t
  }

  /**
   * `Bytes.indexOf(array, target)`: the first position where `target` occurs, 0 for an empty
   * target, -1 when there is none. Byte positions, not entry positions: a match may straddle entries.
   */
  method IndexOf(a: seq<Byte>, t: seq<Byte>) returns (r: int)
    ensures r == -1 || OccursAt(a, t, r)
    ensures r == -1 <==> forall k :: 0 <= k <= |a| - |t| ==> !OccursAt(a, t, k)
    ensures r >= 0 ==> forall k :: 0 <= k < r ==> !OccursAt(a, t, k)
  {
    if |t| == 0 {
      assert OccursAt(a, t, 0);
      return 0;
    }
    var i := 0;
    while i < |a| - |t| + 1
      invariant 0 <= i
      invariant i <= |a| - |t| + 1 || i == 0
      invariant forall k :: 0 <= k < i ==> !OccursAt(a, t, k)
    {
      var j := 0;
      while j < |t| && a[i + j] == t[j]
        invariant 0 <= j <= |t|
        invariant a[i..i + j] == t[..j]
      {
        assert a[i..i + j + 1] == a[i..i + j] + [a[i + j]];
        assert t[..j + 1] == t[..j] + [t[j]];
        j := j + 1;
      }
      if j == |t| {
        assert t[..j] == t;
        return i;
      }
      assert a[i..i + |t|][j] != t[j];
      i := i + 1;
    }
    return -1;
  }

  /**
   * Where a follower starts reading its ledger list: 8 past the first occurrence of its cursor
   * bytes, or 8 when the cursor does not occur. An empty cursor (a member that has applied
   * nothing yet) also starts at 8, so the first slot is never read.
   */
  method ReplayStart(list: seq<Byte>, cursor: seq<Byte>) returns (start: int)
    ensures start >= 8
    ensures || (OccursAt(list, cursor, start - 8) && forall k :: 0 <= k < start - 8 ==> !OccursAt(list, cursor, k))
            || (start == 8 && forall k :: 0 <= k <= |list| - |cursor| ==> !OccursAt(list, cursor, k))
    ensures |cursor| == 0 ==> start == 8
  {
    var i := IndexOf(list, cursor);
    if |cursor| == 0 {
      assert OccursAt(list, cursor, 0);
    }
    start := (if i == -1 then 0 else i) + 8;
  }

  /** The offsets `for (i = start; i < len; i += 8)` visits. */
  function Offsets(start: int, len: int): (r: seq<int>)
    ensures |r| == if start < len then (len - start + 7) / 8 else 0
    ensures forall k :: 0 <= k < |r| ==> r[k] == start + 8 * k && r[k] < len
    decreases len - start
  {
    if start >= len then [] else [start] + Offsets(start + 8, len)
  }

  /** Every position from `start` on, below `len`, in steps of 8, is visited, and nothing else. */
  lemma OffsetsComplete(start: int, len: int, o: int)
    ensures o in Offsets(start, len) <==> start <= o < len && (o - start) % 8 == 0
  {
    var r := Offsets(start, len);
    if start <= o < len && (o - start) % 8 == 0 {
      var k := (o - start) / 8;
      assert r[k] == o;
    }
  }

  /**
   * The leader's fold over the members' cursors: the least value among the non-empty ones,
   * `Long.MAX_VALUE` when all are empty. A non-empty cursor shorter than 8 bytes makes
   * `byteArrayToLong` raise, which ends the fold (None).
   */
  method MinCursor(cursors: seq<seq<Byte>>) returns (r: Option<Int64>)
    ensures r.None? <==> exists i :: 0 <= i < |cursors| && 0 < |cursors[i]| < 8
    ensures r.Some? ==> forall i :: 0 <= i < |cursors| && |cursors[i]| > 0 ==> r.value <= ByteArrayToLong(cursors[i], 0)
    ensures r.Some? ==> r.value == MaxInt64 || exists i :: 0 <= i < |cursors| && |cursors[i]| >= 8 && r.value == ByteArrayToLong(cursors[i], 0)
  {
    var first: Int64 := MaxInt64;
    ghost var w := 0;
    var i := 0;
    while i < |cursors|
      invariant 0 <= i <= |cursors|
      invariant forall j :: 0 <= j < i ==> |cursors[j]| == 0 || |cursors[j]| >= 8
      invariant LowerBound(first, cursors, i)
      invariant first == MaxInt64 || (0 <= w < i && |cursors[w]| >= 8 && first == ByteArrayToLong(cursors[w], 0))
    {
      var prev := first;
      if |cursors[i]| > 0 {
        if |cursors[i]| < 8 {
          return None;
        }
        var value := ByteArrayToLong(cursors[i], 0);
        if value < first {
          first, w := value, i;
        }
      }
      LowerBoundStep(prev, first, cursors, i);
      i := i + 1;
    }
    return Some(first);
  }

  /** x is at most the value of every readable cursor among the first n. */
  predicate LowerBound(x: int, cursors: seq<seq<Byte>>, n: int)
    requires 0 <= n <= |cursors|
  {
    forall j :: 0 <= j < n && |cursors[j]| >= 8 ==> x <= ByteArrayToLong(cursors[j], 0)
  }

  /** A bound that also covers cursor n, and is no larger than the old one, extends to n + 1. */
  lemma LowerBoundStep(x: int, y: int, cursors: seq<seq<Byte>>, n: int)
    requires 0 <= n < |cursors| && LowerBound(x, cursors, n) && y <= x
    requires |cursors[n]| >= 8 ==> y <= ByteArrayToLong(cursors[n], 0)
    ensures LowerBound(y, cursors, n + 1)
  {
  }

}

=== FILE: wrappers.dfy ===
/** Failure-carrying datatypes shared by the whole model. */
module Wrappers {

  datatype Option<+T> = None | Some(value: T)

  /** The outcome of an operation that either yields a value or raises an error. */
  datatype Result<+R, +E> = Success(value: R) | Failure(error: E)
}

=== FILE: writetx.dfy ===
/**
 * `WriteTransaction`: a leader-only transaction that owns one ledger from construction on.
 * `add` appends straight to the ledger; `commit` publishes it through `commitLedger`;
 * `abort` and `close` both discard it through `abortLedger`.
 */
module WriteTransactions {
  import opened Wrappers
  import opened Bytes
  import opened LongCodec
  import opened LedgerService
  import opened Coordination
  import opened LogList
  import opened Env

  /** A write transaction: the handle of the ledger it owns (never null once constructed). */
  datatype WriteTx = WriteTx(ledger: LedgerId) {
    /** `isReadOnly`: a write transaction never is. */
    predicate IsReadOnly() {
      false
    }
  }

  /** Whatever ledger it owns, a write transaction reports itself as not read-only. */
  lemma NeverReadOnly(tx: WriteTx)
    ensures !tx.IsReadOnly()
  {
  }

  /** The creation loop returns within these replies: not every reply is NotEnoughBookies. */
  predicate Completes(replies: seq<CreateReply>) {
    exists i :: 0 <= i < |replies| && !replies[i].NotEnoughBookies?
  }

  /**
   * The constructor: creates the ledger the transaction owns. A non-leader raises NotLeader
   * and no ledger comes into existence.
   */
  function Begin(e: Env, replies: seq<CreateReply>): (r: Step<WriteTx>)
    requires FreshReplies(e, replies) && Completes(replies)
    ensures !e.leader ==> r == Step(e, Failure(NotLeader))
    ensures r.result.Failure? ==> r.env == e
    ensures r.result.Success? ==> e.leader && r.result.value.ledger !in e.ledgers
    ensures r.result.Success? ==> r.env.ledgers.Keys == e.ledgers.Keys + {r.result.value.ledger}
    ensures r.result.Success? ==>
      r.env.ledgers[r.result.value.ledger].entries == [] && !r.env.ledgers[r.result.value.ledger].closed
    ensures r.result.Success? ==> forall other :: other in e.ledgers ==> r.env.ledgers[other] == e.ledgers[other]
    ensures r.env.logLists == e.logLists && r.env.paths == e.paths
    ensures r.env.leader == e.leader && r.env.members == e.members
  {
    match CreateLedger(e, replies)
    case Created(env, id, _) => Step(env, Success(WriteTx(id)))
    case Raised(err, _) => Step(e, Failure(err))
    case Retrying(_, _) => assert false; Step(e, Failure(CreateFailure))
  }

  /** `add(data)`: one unbuffered append of exactly `data` to the owned ledger. */
  function Add(e: Env, tx: WriteTx, data: seq<Byte>, ok: bool): (r: Step<()>)
    ensures r.result.Success? <==> ok && tx.ledger in e.ledgers && !e.ledgers[tx.ledger].closed
    ensures r.result.Failure? ==> r == Step(e, Failure(AddFailure))
    ensures r.result.Success? ==> r.env.ledgers.Keys == e.ledgers.Keys
    ensures r.result.Success? ==> r.env.ledgers[tx.ledger].entries == e.ledgers[tx.ledger].entries + [data]
    ensures r.result.Success? ==> !r.env.ledgers[tx.ledger].closed
    ensures r.result.Success? ==> r.env.ledgers[tx.ledger] == e.ledgers[tx.ledger].(entries := e.ledgers[tx.ledger].entries + [data])
    ensures forall other :: other in e.ledgers && other != tx.ledger ==> r.env.ledgers[other] == e.ledgers[other]
    ensures r.env.logLists == e.logLists && r.env.paths == e.paths
    ensures r.env.leader == e.leader && r.env.members == e.members
  {
    match AddEntry(e.ledgers, tx.ledger, data, ok)
    case Some(ls) => Step(e.(ledgers := ls), Success(()))
    case None => Step(e, Failure(AddFailure))
  }

  /** `commit()`: hands the owned ledger to `commitLedger`; the null-handle guard cannot fire. */
  function Commit(e: Env, tx: WriteTx, closeOk: bool, steps: seq<ZkStep>, times: seq<Int64>, deleteOk: bool): (r: Step<()>)
    requires |steps| == |e.members| && |times| == |e.members|
    ensures !e.leader ==> r == Step(e, Failure(NotLeader))
    ensures r.result.Success? ==> e.leader && tx.ledger in r.env.ledgers && r.env.ledgers[tx.ledger].closed
    ensures r.result.Success? ==> forall i :: 0 <= i < |e.members| ==>
      Appended(e.logLists, r.env.logLists, e.members[i], EntryBytes(tx.ledger, times[i]))
    ensures e.leader && r.result.Failure? ==> r.result.error == CommitFailure(tx.ledger)
  {
    CommitLedger(e, tx.ledger, closeOk, steps, times, deleteOk)
  }

  /** `abort()`: hands the owned ledger to `abortLedger`. */
  function Abort(e: Env, tx: WriteTx, closeOk: bool, deleteOk: bool): (r: Step<()>)
    ensures r.result.Success? <==> e.leader
    ensures !e.leader ==> r == Step(e, Failure(NotLeader))
    ensures r.env.logLists == e.logLists && r.env.paths == e.paths
    ensures e.leader && deleteOk ==> tx.ledger !in r.env.ledgers
    ensures forall other :: other in r.env.ledgers && other != tx.ledger ==> other in e.ledgers && r.env.ledgers[other] == e.ledgers[other]
  {
    AbortLedger(e, tx.ledger, closeOk, deleteOk)
  }

  /**
   * `close()`: exactly `abort()`, whatever happened before, including after a successful commit.
   * A member that has lost leadership raises NotLeader and deletes nothing.
   */
  function Close(e: Env, tx: WriteTx, closeOk: bool, deleteOk: bool): (r: Step<()>)
    ensures r == Abort(e, tx, closeOk, deleteOk)
    ensures r.result.Success? <==> e.leader
    ensures !e.leader ==> r.env == e
    ensures e.leader && deleteOk ==> tx.ledger !in r.env.ledgers
    ensures r.env.logLists == e.logLists
  {
    Abort(e, tx, closeOk, deleteOk)
  }

  /**
   * As written, closing a committed transaction deletes its ledger although every member's
   * log list already names it: replay would meet an id whose ledger no longer exists.
   */
  lemma CloseAfterCommitUnpublishes(e: Env, tx: WriteTx, closeOk: bool, steps: seq<ZkStep>, times: seq<Int64>, deleteOk: bool, closeOk2: bool)
    requires |steps| == |e.members| && |times| == |e.members|
    requires Commit(e, tx, closeOk, steps, times, deleteOk).result.Success?
    ensures var committed := Commit(e, tx, closeOk, steps, times, deleteOk).env;
      var closed := Close(committed, tx, closeOk2, true).env;
      && tx.ledger in committed.ledgers
      && tx.ledger !in closed.ledgers
      && forall i :: 0 <= i < |e.members| ==>
           Appended(e.logLists, closed.logLists, e.members[i], EntryBytes(tx.ledger, times[i]))
  {
  }

  // ---------------------------------------------------------------------------
  // Corrected lifecycle: close after commit leaves the published ledger alone.

  datatype TxState = Active | Committed | Finished

  /** A write transaction that remembers whether it has committed. */
  datatype GuardedTx = GuardedTx(ledger: LedgerId, state: TxState)

  datatype TxStep = TxStep(env: Env, tx: GuardedTx, result: Result<(), Error>)

  /** Commit as before, recording a success in the transaction. */
  function GuardedCommit(e: Env, tx: GuardedTx, closeOk: bool, steps: seq<ZkStep>, times: seq<Int64>, deleteOk: bool): (r: TxStep)
    requires |steps| == |e.members| && |times| == |e.members|
    ensures r.tx.ledger == tx.ledger
    ensures r.tx.state == Committed <==> r.result.Success?
    ensures r.result.Success? ==> tx.ledger in r.env.ledgers && r.env.ledgers[tx.ledger].closed
    ensures r.result.Success? ==> forall i :: 0 <= i < |e.members| ==>
      Appended(e.logLists, r.env.logLists, e.members[i], EntryBytes(tx.ledger, times[i]))
  {
    var s := CommitLedger(e, tx.ledger, closeOk, steps, times, deleteOk);
    TxStep(s.env, tx.(state := if s.result.Success? then Committed else Finished), s.result)
  }

  /** Close: a no-op once committed, otherwise an abort. */
  function GuardedClose(e: Env, tx: GuardedTx, closeOk: bool, deleteOk: bool): (r: TxStep)
    ensures tx.state == Committed ==> r.env == e && r.result.Success?
    ensures tx.state != Committed ==> r.env == AbortLedger(e, tx.ledger, closeOk, deleteOk).env
    ensures r.env.logLists == e.logLists
  {
    if tx.state == Committed then TxStep(e, tx, Success(()))
    else
      var s := AbortLedger(e, tx.ledger, closeOk, deleteOk);
      TxStep(s.env, tx.(state := Finished), s.result)
  }

  /** With the guard, a committed ledger survives the closing of its transaction and stays published. */
  lemma GuardedCloseKeepsPublished(e: Env, tx: GuardedTx, closeOk: bool, steps: seq<ZkStep>, times: seq<Int64>, deleteOk: bool, closeOk2: bool, deleteOk2: bool)
    requires |steps| == |e.members| && |times| == |e.members|
    requires GuardedCommit(e, tx, closeOk, steps, times, deleteOk).result.Success?
    ensures var c := GuardedCommit(e, tx, closeOk, steps, times, deleteOk);
      var closed := GuardedClose(c.env, c.tx, closeOk2, deleteOk2).env;
      && tx.ledger in closed.ledgers && closed.ledgers[tx.ledger].closed
      && closed.ledgers[tx.ledger].entries == e.ledgers[tx.ledger].entries
      && forall i :: 0 <= i < |e.members| ==>
           Appended(e.logLists, closed.logLists, e.members[i], EntryBytes(tx.ledger, times[i]))
  {
  }
}
